=== FILE: README.md ===
# Account book: posting and derived balances

This project models the core of a personal-finance ledger service in Dafny.
The service keeps main categories, categories, assets, loans, dated
statements, and an append-only history of net-worth snapshots. The model
covers the rules that move asset and loan balances when statements, assets
and loans are created, updated, deleted or paid, and the snapshot each of
them writes. It also covers the read-side reports computed from that state:

- the statement list filter and the page/total summary;
- the weekly and monthly per-category breakdowns;
- the monthly totals by category type;
- the weekly and monthly net-worth history views;
- the "change over this week" figure.

The database is one immutable `Ledger` value: a sequence per table plus the
history. Every request is a pure function from the ledger before it to a
`Step`, which holds the ledger as committed and the exception the request
raised, if any. The wall clock and today's date are parameters. Dates follow
Python's proleptic Gregorian ordinals and weekdays, with Monday as 0. A
comparison of a timestamp with a plain date compares it with that date's
midnight.

Modules:

- `Calendar`: dates, ordinals, weekdays, week starts, timestamps and windows.
- `Models`: rows, keys, the join from a category to its main category, and `Sum`.
- `Balance`: the balance engine as the code is written.
- `BalanceLaws`: how creates and payments move the recorded net worth, and when a delete undoes a create.
- `Corrected`: create and delete as evidently intended, with the two counterexamples.
- `Grouping`: SQL `GROUP BY` with two `SUM` columns, and lookup by key.
- `Breakdown`, `Totals`, `Summary`, `History`: the reports.

Points where the model follows the code rather than its apparent intent:

- A create moves the linked asset by the raw request amount, not by the
  sign-normalised stored amount, and the discount plays no part.
- A delete lowers the asset by the magnitude of the stored amount. It reverses
  the loan with the stored `amount`, not with `saving`.
- A snapshot over an empty asset or loan table raises (`EmptySum`). The SQL sum
  of no rows is NULL, and the code subtracts it without a default.
- The reports treat type code 2 as the expense type. The monthly totals read 2
  as expense, and the sign flip of the breakdowns applies to 2.
- The history windows include their upper bound (`<=`), as the queries do.

## Model

| member | source | states |
|---|---|---|
| Models.IndexOf | app/routes.py:969 | `.first()` on a key: the index found holds the key and no earlier row does; None exactly when no row has the key |
| Models.CategoryTypeOf | app/routes.py:545-551 | a type found is the type of the main category that the category (with that id, in the table) names, and that main category is in its table; while category ids are unique, None exactly when no such category and main category pair exists |
| Models.SelectInOrder | app/routes.py:601-620 | a `WHERE` filter keeps the rows that pass in table order: row i of the result is the row at a strictly increasing table index, and every passing row is kept |
| Models.SumSelect | app/routes.py:628-640 | summing a column over the filtered rows is summing it over the table's passing rows |
| Models.JoinOf | app/routes.py:497-501 | the inner join yields a category row with the statement's category id and the main category row it names, both taken from their tables; it succeeds exactly when the category type resolves, and that type is the main category's |
| Balance.NetWorth | app/utils.py:8-15 | no value exactly when the asset or loan table is empty; otherwise the asset sum minus the loan sum |
| Balance.Snapshot | app/utils.py:6-20 | tables unchanged; exactly one row appended, holding the current net worth and `now`, with earlier rows kept; an empty table leaves the ledger unchanged with `EmptySum` |
| Balance.ShiftAsset | app/routes.py:557-559 | only the asset with the target id moves, and by exactly `delta`; keys stay unique; the asset total moves by `delta` exactly when the target exists |
| Balance.ShiftLoan | app/routes.py:564-566 | only the loan with the target id moves, and by exactly `delta`; keys stay unique; the loan total moves by `delta` exactly when the target exists |
| Balance.Normalise | app/routes.py:550-553 | an income amount is stored as given; any other type stores a non-positive amount of the same magnitude |
| Balance.NormaliseIdempotent | app/routes.py:954-956 | applying the sign rule to an already stored amount changes nothing |
| Balance.Rewrite | app/routes.py:947-961 | an update writes every request field and the re-normalised amount, and keeps the id and the asset and loan links |
| Balance.Post | app/routes.py:555-571 | a committed create keeps the database invariants, moves only the linked asset and loan, appends the row, and moves each total by its delta when linked |
| Balance.CreateStatement | app/routes.py:527-584 | rejected, with nothing written, exactly when the category, its main category, or a linked asset or loan is missing (account cards are not checked); otherwise the asset moves by the raw request amount and the loan by −saving, nothing else moves, the row is appended with the normalised amount, and a snapshot follows exactly when an asset or loan is linked |
| Balance.UpdateStatement | app/routes.py:941-964 | `MissingRow` exactly when the id is absent; only the matching statement changes, to the rewritten row; assets, loans and history are unchanged |
| Balance.AssetReversal | app/routes.py:973-976 | both branches of the delete lower the asset by the magnitude of the stored amount |
| Balance.RemoveAt | app/routes.py:986 | removing a row keeps the other rows in their order |
| Balance.Unpost | app/routes.py:971-987 | a committed delete keeps the database invariants, moves only the statement's asset and loan, and removes exactly that row |
| Balance.DeleteStatement | app/routes.py:967-988 | `MissingRow` exactly when the id is absent; otherwise the asset drops by the stored amount's magnitude and the loan moves by −amount, the row is removed, and no snapshot is written |
| Balance.LoanPayment | app/routes.py:382-392 | `MissingRow` for an absent loan; `MissingPayment` when the payment is NULL; otherwise only that loan changes, with its month advanced by 1 and its balance lowered by the payment, and then a snapshot |
| Balance.CreateAsset | app/routes.py:168-185 | the row is appended and a snapshot taken; the snapshot faults exactly when there are no loans |
| Balance.UpdateAsset | app/routes.py:306-322 | `MissingRow` exactly when the id is absent; otherwise only that asset is replaced by the request's fields, and then a snapshot |
| Balance.UnlinkAssets | models.py:135 | deleting an asset clears the link of every statement that named it, and changes nothing else: other statements are kept as they were, and a cleared statement differs only in its link |
| Balance.UnlinkLoans | models.py:136 | deleting a loan clears the link of every statement that named it, and changes nothing else: other statements are kept as they were, and a cleared statement differs only in its link |
| Balance.DropAssetKeepsWellformed | app/routes.py:327-329 | removing an asset and clearing its links keeps keys unique and links resolvable, and the id is gone |
| Balance.DeleteAsset | app/routes.py:325-333 | `MissingRow` for an absent asset; `ForeignKeyViolation`, with nothing changed, while a main category names it; otherwise the row is removed, its statement links are cleared, and a snapshot follows |
| Balance.CreateLoan | app/routes.py:343-364 | the row is appended, a NULL payment taking the column default 0, and a snapshot follows; the snapshot faults exactly when there are no assets |
| Balance.UpdateLoan | app/routes.py:395-414 | `MissingRow` exactly when the id is absent; otherwise only that loan is replaced by the request's fields (NULL payment kept), and then a snapshot |
| Balance.DeleteLoan | app/routes.py:417-424 | `MissingRow` for an absent loan; otherwise the row is removed, its statement links are cleared, and a snapshot follows |
| BalanceLaws.AssetsMovedSum | app/utils.py:8 | moving one asset moves the asset sum by the same amount, and only when the target exists |
| BalanceLaws.LoansMovedSum | app/utils.py:11 | moving one loan moves the loan sum by the same amount, and only when the target exists |
| BalanceLaws.CreateShiftsNetWorth | app/routes.py:555-578 | a linked create on non-empty tables appends exactly one row: the previous net worth plus the raw amount (asset side) plus the saving (loan side), whatever the category type and the discount |
| BalanceLaws.LoanPaymentShiftsNetWorth | app/routes.py:384-390 | a payment appends exactly one row: the previous net worth raised by the payment amount |
| BalanceLaws.AssetRoundTripAsWritten | app/routes.py:973-976 | deleting an asset-linked statement right after creating it restores the assets exactly when the request amount was not negative |
| BalanceLaws.LoanRoundTripAsWritten | app/routes.py:980-982 | deleting a loan-linked statement right after creating it restores the loans exactly when the stored amount is −saving |
| BalanceLaws.UpdateLeavesBalances | app/routes.py:947-964 | an update moves no asset or loan balance, writes no history, and leaves the net worth unchanged |
| Corrected.CreateStatement | app/routes.py:555-559 | the corrected create: the same as the code, except the asset moves by the stored, normalised amount plus the discount |
| Corrected.DeleteStatement | app/routes.py:973-982 | the corrected delete: the asset moves by minus the stored amount plus discount, and the loan gets `saving` back; the row is removed |
| Corrected.CreateThenDeleteRestores | app/routes.py:967-988 | with the corrected rules, create then delete gives back the assets, loans and statements, whatever the amounts and the category type |
| Corrected.ExpenseRaisesAssetAsWritten | app/routes.py:559 | an expense of 10000 stored as −10000 raises an asset of 100000 to 110000 as written, and lowers it to 90000 when corrected |
| Corrected.DiscountedExpenseAsWritten | app/routes.py:559 | a second expense of 10000 with a discount of 1000 raises an asset of 90000 to 100000 as written, and lowers it by the 9000 paid, to 81000, when corrected |
| Corrected.CreateStatementUndeclared | app/routes.py:527-543 | against the request schema as declared, which lacks `is_fixed`, every create fails with nothing written |
| Corrected.UpdateStatementUndeclared | app/routes.py:941-962 | against the same schema, an update fails with nothing written: `MissingRow` exactly when the id is absent, otherwise on the undeclared field |
| Corrected.UndeclaredFieldBlocksWrites | app/routes.py:543 | the first expense request fails as written and is appended with `is_fixed` declared; a rename of that row fails as written and is applied with the field declared |
| Corrected.DeleteOverRefundsLoanAsWritten | app/routes.py:982 | payment 500000, saving 300000, loan 100000: after create and delete the loan reads 300000 as written, and 100000 when corrected |
| Grouping.Lookup | app/routes.py:722-729 | finds a group exactly when one has the key, and the group found has that key |
| Grouping.LookupFindsFirst | app/routes.py:722-729 | when a group has the key, the lookup returns the first such group of the list, unchanged |
| Grouping.AddToLookup | app/routes.py:700-713 | folding one row into the groups adds its values to its own key's group, or opens that group, and leaves every other key's lookup unchanged |
| Grouping.GroupByLookup | app/routes.py:700-713 | the groups have distinct keys; a key with rows finds the sums of both columns over its rows; a key without rows finds nothing |
| Grouping.GroupedSums | app/routes.py:718-729 | the value a report reads for a key is the column sums over that key's rows, or 0 and 0 when it has none |
| Calendar.OrdinalNextDay | app/routes.py:205 | adding one day to a date adds 1 to its ordinal |
| Calendar.CompareWithMidnight | app/routes.py:209-210 | comparing a timestamp with a date's midnight is comparing their days, with equality only at 00:00:00 |
| Calendar.SundayOnOrBefore | app/routes.py:665-668 | the breakdown's week start is a Sunday, at most six days before the date |
| Calendar.SundayBefore | app/routes.py:204 | the history's week start is a Sunday, one to seven days before the date |
| Calendar.WeekStartsAgreeOffSunday | app/routes.py:266 | the two week-start rules agree exactly on non-Sundays; on a Sunday the history rule is a week earlier |
| Calendar.FirstOfMonth | app/routes.py:229 | the first day of the date's month |
| Calendar.LastOfMonth | app/routes.py:230 | the last day of the date's month, as many days after the first as the month has, less one |
| Breakdown.WeekWindowDays | app/routes.py:687-688 | a statement is in the week exactly when its day is one of the seven days from the Sunday on or before the date |
| Breakdown.MonthWindowDays | app/routes.py:745-760 | a statement is in the month when its day is in the month, and also when it is stamped exactly at the next day's midnight |
| Breakdown.GroupKey | app/routes.py:685-712 | a statement is grouped exactly when its join succeeds and the scope's filter (main category type, or main category id) accepts its main category; the key is that main category's id or the category's id, according to the scope |
| Breakdown.MainSlots | app/routes.py:694-698 | the listed rows are exactly the main categories of the type, with their ids and names |
| Breakdown.MainSlotsInOrder | app/routes.py:694-698 | row i is the i-th main category of the type in table order; every main category of the type is listed, once |
| Breakdown.CategorySlots | app/routes.py:671-676 | the listed rows are exactly the categories that join to a main category selected by the scope, each with that main category's type |
| Breakdown.CategorySlotsInOrder | app/routes.py:671-676 | row i is the i-th such category in table order; every such category is listed, once |
| Breakdown.Entries | app/routes.py:700-713 | the grouped query's input rows are exactly the window's statements that get a key, each carried with its key, amount and discount |
| Breakdown.EntriesSums | app/routes.py:700-713 | summing the grouped query's rows for a key is summing the matching statements in the window directly |
| Breakdown.Flip | app/routes.py:724-727 | for type 2 the shown amount is the sum's magnitude; for any other type it is the sum |
| Breakdown.CategoryBreakdown | app/routes.py:654-788 | modes 1 and 2 only; one row per listed (main) category, holding the sign-ruled amount and the discount of its statements in the window, 0 when it has none, plus a last row totalling them; for type 2 every amount, the total row included, is ≥ 0 |
| Breakdown.SubcategoryBreakdown | app/routes.py:791-837 | mode 1 only; one row per category of the main category, holding the week's sum sign-ruled by the main category's type; no total row |
| Summary.StatementList | app/routes.py:485-524 | a statement is listed exactly when it joins and passes every given filter, with `date_lte` covering that whole day; each listed statement appears as often as in the table |
| Summary.SummaryWithinList | app/routes.py:607-608 | the summary keeps a subset of what the list keeps; it drops exactly the rows on the `date_lte` day after its midnight |
| Summary.SummaryRows | app/routes.py:601-620 | a statement is summed exactly when it joins and passes every given filter, with `date_lte` compared as its midnight; each kept statement appears as often as in the table |
| Summary.Page | app/routes.py:625 | a page holds at most `size` rows: the slice [(page−1)·size, page·size) when it is full, the rest of the rows when it is the partial last page, nothing past the end |
| Summary.FirstPageHoldsAll | app/routes.py:625 | a first page at least as large as the rows holds all of them |
| Summary.StatementSummary | app/routes.py:587-651 | a page below 1 or a size outside 1..100 is refused; otherwise each total (amount, discount, saving) is the table-wide sum over the statements the summary filter keeps, each page sum is the sum over the kept rows from (page−1)·size up to page·size (clamped to the rows), a page past the end sums to 0, and a first page covering every row sums to the totals |
| Summary.PagesTile | app/routes.py:625 | the first n pages, one after another, are exactly the first n·size rows (all rows once that passes the end), and their amounts add up to those rows' amount |
| Summary.PagesRowsTile | app/routes.py:625 | the first n pages, one after another, are exactly the first n·size rows, or all rows once that passes the end |
| Summary.SummaryPagesArePages | app/routes.py:625-640 | the `pageAmount`s the summary reports for pages 1..n add up to the amounts of those pages of its rows |
| Summary.PagesAddUpToTotal | app/routes.py:625-640 | once the pages cover every row, the `pageAmount`s the summary reports for them add up to its `totalAmount` |
| Totals.TypeEntriesSums | app/routes.py:861-872 | summing the grouped rows for a type is summing amount and saving over that month's statements of that type |
| Totals.StatementTotal | app/routes.py:840-896 | mode 3 only; each type's field is the sum over the month's statements of that type, 0 when it has none; discount is every statement of the month; the totals add them with and without discount |
| Totals.TotalsIgnoreYear | app/routes.py:869-876 | two dates with the same month number give the same totals, whatever their years |
| History.Insert | app/routes.py:211 | inserting a row into time-ordered rows keeps them time-ordered and adds exactly that row |
| History.SortByTime | app/routes.py:211 | the rows come out ordered by creation time, a permutation of the table |
| History.InRange | app/routes.py:209-210 | exactly the rows inside the window are kept, each as often as in the table, and time order is kept |
| History.WeekViewDays | app/routes.py:204-210 | the weekly view covers the whole days from the week start through the date, plus the first instant of the next day |
| History.MonthViewMissesLastDay | app/routes.py:229-235 | the monthly view covers the month up to the first instant of its last day only |
| History.Put | app/routes.py:219 | the dictionary write: the day gets the value, every other day keeps its value, and a new day goes at the end |
| History.CollapseKeepsLast | app/routes.py:215-223 | every day in the view holds the amount of the last row written that day, and a day without rows has no entry |
| History.CollapseInDayOrder | app/routes.py:218-223 | on time-ordered rows the view's days come out in calendar order, and the last row's day comes last |
| History.AssetHistory | app/routes.py:198-253 | modes 1 and 2 only; distinct days in calendar order, each with the last amount written that day within the week or month window |
| History.SumOfChanges | app/routes.py:282-288 | the loop's sum of consecutive differences is the last amount minus the first, and 0 for no rows |
| History.WeekNetWorthChange | app/routes.py:261-298 | fails exactly when the net worth does; otherwise the current net worth, and the last minus the first amount of this week's rows (0 with no rows, and 0 with one) |

## Left out

- The HTTP routing, the pagination library, request validation other than the
  summary's page bounds, the sessions, and the commit/refresh ordering are not
  modelled. Each request is one function.
- Notifications (`is_alert`) are not modelled. `convert_message` and
  `push_notification` are not part of this model.
- Database migrations and the test suite are not modelled.
- Clocks are parameters: `now` for snapshots and today's date for the weekly
  change. One `now` stands for both the snapshot's `timestamp` and its
  database `created_at`.
- Sub-second precision of timestamps is not modelled.
- Loan `principal`, `interest_rate` and `total_months` are not modelled. No
  rule reads them.
- Account cards, memos, users and the name-suggestion search are not modelled.
- The calendar rollup is not modelled.
- Modes 1 and 2 of `get_statement_total` are modelled only as "no result".
  Mode 1 calls `replace(hour=…)` on a date, and neither mode returns data.
- `TYPE_INCOME` comes from app/consts.py, which is not part of this model. It is
  taken to be 1.
- A missing category or main category on update is not modelled as a fault.
  `Balance.UpdateStatement` takes the category type as a parameter, because the
  code reads it through a relationship that may be stale after `category_id` is
  reassigned.
- Balance.CreateStatement / Balance.UpdateStatement: these take the request
  to carry `is_fixed`. The request schema `StatementIn` (app/in_schema.py:41-52)
  does not declare it, and pydantic drops undeclared fields, so reading it
  (app/routes.py:543, 961) fails on every create and on every update of an
  existing row, with nothing written. `Corrected.CreateStatementUndeclared`
  and `Corrected.UpdateStatementUndeclared` model that; Findings records it.
- The views return days as dates, not as formatted strings.
- Adding a day to 9999-12-31 overflows in the code. The model's windows use the
  ordinal + 1 instead.
- Breakdown.MainSlots / Breakdown.CategorySlots: the rows are listed in table
  order. The queries at app/routes.py:671-676 and 694-698 give no `ORDER BY`, so
  the database does not promise that order.
- Balance.CreateStatement / Balance.UpdateStatement: a dangling
  `account_card_id` is not rejected. The column is a foreign key to the account
  cards (models.py:116), so the database refuses that commit and nothing is
  written, while the model commits. Account cards are not modelled. The same
  holds for a dangling `category_id` on update, whose category type the model
  takes as a parameter.
- Balance.CreateStatement, Balance.DeleteStatement, Balance.LoanPayment,
  Balance.CreateAsset, Balance.UpdateAsset, Balance.CreateLoan,
  Balance.UpdateLoan, Balance.Snapshot: amounts and balances are unbounded
  integers. In the database they are 32-bit `Integer` columns (models.py:59, 72,
  90, 123-125). A move, payment or snapshot that takes a value past 2^31 − 1 (or
  below −2^31) fails at commit, and the model commits it.
- Summary.StatementList: the rows come in table order. The requested
  `ORDER BY sort order` is not modelled.
- Summary.StatementSummary: the page is cut from the matching rows in table
  order, not in the requested sort order.
- History.SortByTime: rows with equal creation times keep their table order.
  The database does not promise any order for such ties.
- The tests expect the expense create to lower the asset to 90000, and the next
  create with a discount to lower it to 81000. As written both creates fail on
  the undeclared `is_fixed` (app/routes.py:543) before the asset is touched, so
  it stays at 100000. With `is_fixed` declared, the code gives 110000, then
  120000, because it adds the raw amount and ignores the discount. The model
  follows the code, and Findings records the discrepancy.
- Corrected.CreateStatement: the asset moves by the stored amount plus the
  discount for every category type. The tests only show an expense; for an
  income the sign of the discount's effect is a guess.

## Findings

| source | as written | input that shows it | evidently intended | confidence | as-written member | corrected member |
|---|---|---|---|---|---|---|
| app/routes.py:559 | create adds the raw request amount to the linked asset, although an expense is stored negated; the line is reached only once the failure at app/routes.py:543 is fixed | expense category, amount 10000, asset 100000: the asset becomes 110000, while the stored amount is −10000 | the asset moves by the stored amount, to 90000; the delete at app/routes.py:973-976 must then move it back by minus the stored amount, not by minus its magnitude as written, so the corrected delete changes those lines too | not executed | Corrected.ExpenseRaisesAssetAsWritten | Corrected.CreateThenDeleteRestores |
| app/routes.py:559 | create ignores the discount when it moves the linked asset; the line is reached only once the failure at app/routes.py:543 is fixed | expense, amount 10000, discount 1000, asset 90000: the asset becomes 100000 | the asset moves by what was paid, the stored −10000 plus the 1000 discount, to 81000 as tests/test_api.py:153 expects; the corrected delete takes back the same sum | not executed | Corrected.DiscountedExpenseAsWritten | Corrected.CreateThenDeleteRestores |
| app/routes.py:543 | create reads `is_fixed`, which the request schema `StatementIn` does not declare | any create request, such as the tests' first expense: the attribute read fails and nothing is written, while tests/test_api.py:130 expects 200 | the schema declares `is_fixed` and the create commits | not executed | Corrected.UndeclaredFieldBlocksWrites | Balance.CreateStatement |
| app/routes.py:961 | update reads `is_fixed` the same way, after setting the other fields but before the commit | any update of an existing statement: it fails with nothing written | the update commits the rewritten row | not executed | Corrected.UndeclaredFieldBlocksWrites | Balance.UpdateStatement |
| app/routes.py:982 | delete reverses the loan with the stored `amount`, but create moved it by `saving` | expense, amount 500000, saving 300000, loan 100000: create leaves −200000, and delete leaves 300000 | delete gives the loan back its `saving`, returning it to 100000 | not executed | Corrected.DeleteOverRefundsLoanAsWritten | Corrected.CreateThenDeleteRestores |

=== FILE: balance.dfy ===
/** The balance engine: the requests that move asset and loan balances and
    write net-worth snapshots (app/routes.py, app/utils.py). Each request
    is a pure function from the ledger before it to a `Step`: the ledger as
    committed afterwards and the exception the request raised, if any.
    Failures before the first commit leave the ledger as it was; a snapshot
    that fails after a commit leaves the committed changes in place. */
module Balance {
  import opened Calendar
  import opened Models

  datatype Fault =
    | MissingRow           // `.first()` found no row and the code used the result
    | EmptySum             // SUM over an empty table is NULL and NULL arithmetic raises
    | MissingPayment       // a loan whose `payment_amount` is NULL was paid
    | ForeignKeyViolation  // a deleted asset is still a main category's linked asset
    | UndeclaredField      // the request schema does not declare an attribute the code reads

  datatype Step = Step(ledger: Ledger, fault: Option<Fault>)

  function Abs(x: int): int { if x < 0 then -x else x }

  // ---------------------------------------------------------------------
  // Net worth and snapshots (app/utils.py:6-20)

  /** Sum of asset amounts minus sum of loan amounts; None when either table
      is empty, because the SQL sum of no rows is NULL. */
  function NetWorth(l: Ledger): (r: Option<int>)
    ensures r.None? <==> |l.assets| == 0 || |l.loans| == 0
    ensures r.Some? ==> r.value == Sum(l.assets, AssetAmount) - Sum(l.loans, LoanAmount)
  {
    if |l.assets| == 0 || |l.loans| == 0 then None
    else Some(Sum(l.assets, AssetAmount) - Sum(l.loans, LoanAmount))
  }

  /** Every table but the history is the same in both ledgers. */
  predicate SameTables(l: Ledger, l': Ledger) {
    l'.(history := l.history) == l
  }

  /** `after.history` is `before` with exactly one row appended, whose
      amount is the net worth of `after`'s tables and whose time is `now`. */
  predicate Snapshotted(before: seq<HistoryRow>, after: Ledger, now: DateTime) {
    after.history == before + [HistoryRow(Sum(after.assets, AssetAmount) - Sum(after.loans, LoanAmount), now)]
  }

  /** The outcome of taking a snapshot of `posted`, the ledger as just
      committed: one row appended, or the ledger kept with an EmptySum fault. */
  predicate SnapshotOutcome(posted: Ledger, r: Step, now: DateTime) {
    && SameTables(posted, r.ledger)
    && (r.fault.None? <==> |posted.assets| > 0 && |posted.loans| > 0)
    && (r.fault.None? ==> Snapshotted(posted.history, r.ledger, now))
    && (r.fault.Some? ==> r.fault == Some(EmptySum) && r.ledger == posted)
  }

  /** `new_asset_history`: append the current net worth, stamped `now`. */
  function Snapshot(l: Ledger, now: DateTime): (r: Step)
    ensures SnapshotOutcome(l, r, now)
  {
    match NetWorth(l)
    case None => Step(l, Some(EmptySum))
    case Some(w) => Step(l.(history := l.history + [HistoryRow(w, now)]), None)
  }

  // ---------------------------------------------------------------------
  // Moving one asset or loan balance

  function MoveAsset(a: Asset, target: Option<Id>, delta: int): Asset {
    if target == Some(a.id) then a.(amount := a.amount + delta) else a
  }

  function MoveLoan(n: Loan, target: Option<Id>, delta: int): Loan {
    if target == Some(n.id) then n.(amount := n.amount + delta) else n
  }

  /** Every asset of `after` is the one of `before`, moved by `delta` when it
      is the target; no asset is added or removed. */
  predicate AssetsMoved(before: seq<Asset>, after: seq<Asset>, target: Option<Id>, delta: int) {
    |after| == |before| && forall j :: 0 <= j < |before| ==> after[j] == MoveAsset(before[j], target, delta)
  }

  predicate LoansMoved(before: seq<Loan>, after: seq<Loan>, target: Option<Id>, delta: int) {
    |after| == |before| && forall j :: 0 <= j < |before| ==> after[j] == MoveLoan(before[j], target, delta)
  }

  function Hit<T>(rows: seq<T>, key: T -> Id, target: Option<Id>): bool {
    target.Some? && HasKey(rows, key, target.value)
  }

  /** Tables whose rows keep their keys keep their key invariants. */
  lemma SameKeys<T>(a: seq<T>, b: seq<T>, key: T -> Id)
    requires |a| == |b|
    requires forall j :: 0 <= j < |a| ==> key(a[j]) == key(b[j])
    ensures UniqueKeys(a, key) ==> UniqueKeys(b, key)
    ensures forall id :: HasKey(a, key, id) <==> HasKey(b, key, id)
  {
    forall id | HasKey(a, key, id) ensures HasKey(b, key, id) {
      var j :| 0 <= j < |a| && key(a[j]) == id;
      assert key(b[j]) == id;
    }
    forall id | HasKey(b, key, id) ensures HasKey(a, key, id) {
      var j :| 0 <= j < |b| && key(b[j]) == id;
      assert key(a[j]) == id;
    }
  }

  function ShiftAsset(rows: seq<Asset>, target: Option<Id>, delta: int): (r: seq<Asset>)
    requires UniqueKeys(rows, AssetKey)
    ensures AssetsMoved(rows, r, target, delta)
    ensures UniqueKeys(r, AssetKey)
    ensures forall id :: HasKey(rows, AssetKey, id) <==> HasKey(r, AssetKey, id)
    ensures Sum(r, AssetAmount) == Sum(rows, AssetAmount) + (if Hit(rows, AssetKey, target) then delta else 0)
  {
    var r :=
      if target.None? then rows
      else match IndexOf(rows, AssetKey, target.value)
        case None => rows
        case Some(i) => rows[i := rows[i].(amount := rows[i].amount + delta)];
    assert AssetsMoved(rows, r, target, delta) by {
      if target.Some? && IndexOf(rows, AssetKey, target.value).Some? {
        var i := IndexOf(rows, AssetKey, target.value).value;
        forall j | 0 <= j < |rows| ensures r[j] == MoveAsset(rows[j], target, delta) {
          IndexOfUnique(rows, AssetKey, target.value, j);
        }
      }
    }
    assert Sum(r, AssetAmount) == Sum(rows, AssetAmount) + (if Hit(rows, AssetKey, target) then delta else 0) by {
      if target.Some? && IndexOf(rows, AssetKey, target.value).Some? {
        var i := IndexOf(rows, AssetKey, target.value).value;
        SumUpdate(rows, i, rows[i].(amount := rows[i].amount + delta), AssetAmount);
      }
    }
    SameKeys(rows, r, AssetKey);
    r
  }

  function ShiftLoan(rows: seq<Loan>, target: Option<Id>, delta: int): (r: seq<Loan>)
    requires UniqueKeys(rows, LoanKey)
    ensures LoansMoved(rows, r, target, delta)
    ensures UniqueKeys(r, LoanKey)
    ensures forall id :: HasKey(rows, LoanKey, id) <==> HasKey(r, LoanKey, id)
    ensures Sum(r, LoanAmount) == Sum(rows, LoanAmount) + (if Hit(rows, LoanKey, target) then delta else 0)
  {
    var r :=
      if target.None? then rows
      else match IndexOf(rows, LoanKey, target.value)
        case None => rows
        case Some(i) => rows[i := rows[i].(amount := rows[i].amount + delta)];
    assert LoansMoved(rows, r, target, delta) by {
      if target.Some? && IndexOf(rows, LoanKey, target.value).Some? {
        var i := IndexOf(rows, LoanKey, target.value).value;
        forall j | 0 <= j < |rows| ensures r[j] == MoveLoan(rows[j], target, delta) {
          IndexOfUnique(rows, LoanKey, target.value, j);
        }
      }
    }
    assert Sum(r, LoanAmount) == Sum(rows, LoanAmount) + (if Hit(rows, LoanKey, target) then delta else 0) by {
      if target.Some? && IndexOf(rows, LoanKey, target.value).Some? {
        var i := IndexOf(rows, LoanKey, target.value).value;
        SumUpdate(rows, i, rows[i].(amount := rows[i].amount + delta), LoanAmount);
      }
    }
    SameKeys(rows, r, LoanKey);
    r
  }

  // ---------------------------------------------------------------------
  // Statements (app/routes.py:527-584, 941-964, 967-988)

  /** The request body of a statement create or update. `isFixed` is read
      by the code although the request schema does not declare it. */
  datatype StatementInput = StatementInput(
    name: string,
    categoryId: Id,
    amount: int,
    date: DateTime,
    discount: int,
    saving: int,
    description: Option<string>,
    accountCardId: Option<Id>,
    assetId: Option<Id>,
    loanId: Option<Id>,
    isFixed: bool)

  /** Sign normalisation shared by create and update: an amount of a
      non-income category is stored as a non-positive number of the same
      magnitude; an income amount is stored as given. */
  function Normalise(categoryType: int, amount: int): (stored: int)
    ensures categoryType == TYPE_INCOME ==> stored == amount
    ensures categoryType != TYPE_INCOME ==> stored <= 0 && Abs(stored) == Abs(amount)
  {
    if categoryType != TYPE_INCOME && amount > 0 then -amount else amount
  }

  /** Normalising an already stored amount changes nothing. */
  lemma NormaliseIdempotent(categoryType: int, amount: int)
    ensures Normalise(categoryType, Normalise(categoryType, amount)) == Normalise(categoryType, amount)
  {
  }

  /** The row a create inserts, carrying the normalised amount. */
  function NewStatement(id: Id, input: StatementInput, stored: int): (s: Statement)
    ensures s.id == id && s.amount == stored
    ensures s.assetId == input.assetId && s.loanId == input.loanId
  {
    Statement(id, input.name, input.categoryId, input.accountCardId, input.assetId, input.loanId,
              stored, input.discount, input.saving, input.date, input.isFixed, input.description)
  }

  /** An update: every field of the request is written, the amount
      re-normalised; the id and the asset and loan links are kept. */
  function Rewrite(s: Statement, input: StatementInput, categoryType: int): (r: Statement)
    ensures r.id == s.id && r.assetId == s.assetId && r.loanId == s.loanId
    ensures r.amount == Normalise(categoryType, input.amount)
    ensures r.name == input.name && r.categoryId == input.categoryId && r.accountCardId == input.accountCardId
    ensures r.discount == input.discount && r.saving == input.saving && r.date == input.date
    ensures r.description == input.description && r.isFixed == input.isFixed
  {
    NewStatement(s.id, input.(assetId := s.assetId, loanId := s.loanId), Normalise(categoryType, input.amount))
  }

  /** Why a create is rejected before anything is written: the category,
      its main category, or a linked asset or loan does not exist. */
  predicate CreateRejected(l: Ledger, input: StatementInput) {
    || CategoryTypeOf(l, input.categoryId).None?
    || (input.assetId.Some? && !HasKey(l.assets, AssetKey, input.assetId.value))
    || (input.loanId.Some? && !HasKey(l.loans, LoanKey, input.loanId.value))
  }

  /** The ledger a create commits: the balances moved by the given deltas
      and the new row appended. Shared with the corrected variant. */
  function Post(l: Ledger, s: Statement, assetDelta: int, loanDelta: int): (p: Ledger)
    requires Wellformed(l)
    requires !HasKey(l.statements, StatementKey, s.id)
    requires s.assetId.Some? ==> HasKey(l.assets, AssetKey, s.assetId.value)
    requires s.loanId.Some? ==> HasKey(l.loans, LoanKey, s.loanId.value)
    ensures Wellformed(p)
    ensures AssetsMoved(l.assets, p.assets, s.assetId, assetDelta)
    ensures LoansMoved(l.loans, p.loans, s.loanId, loanDelta)
    ensures p.statements == l.statements + [s]
    ensures p.mainCategories == l.mainCategories && p.categories == l.categories && p.history == l.history
    ensures Sum(p.assets, AssetAmount) == Sum(l.assets, AssetAmount) + (if s.assetId.Some? then assetDelta else 0)
    ensures Sum(p.loans, LoanAmount) == Sum(l.loans, LoanAmount) + (if s.loanId.Some? then loanDelta else 0)
  {
    var p := l.(assets := ShiftAsset(l.assets, s.assetId, assetDelta),
                loans := ShiftLoan(l.loans, s.loanId, loanDelta),
                statements := l.statements + [s]);
    assert UniqueKeys(p.statements, StatementKey);
    assert LinksResolve(p.statements, p.assets, p.loans) by {
      forall k | 0 <= k < |p.statements|
        ensures p.statements[k].assetId.Some? ==> HasKey(p.assets, AssetKey, p.statements[k].assetId.value)
        ensures p.statements[k].loanId.Some? ==> HasKey(p.loans, LoanKey, p.statements[k].loanId.value)
      {
        if k < |l.statements| {
          assert p.statements[k] == l.statements[k];
        }
      }
    }
    p
  }

  /** `create_statement`. The linked asset moves by the raw request amount
      (not the stored, normalised one) and the discount plays no part; the
      linked loan drops by `saving`. A snapshot follows only when the
      statement links an asset or a loan. */
  function CreateStatement(l: Ledger, id: Id, input: StatementInput, now: DateTime): (r: Step)
    requires Wellformed(l)
    requires !HasKey(l.statements, StatementKey, id)
    ensures Wellformed(r.ledger)
    ensures CreateRejected(l, input) <==> r.fault == Some(MissingRow)
    ensures CreateRejected(l, input) ==> r.ledger == l
    ensures !CreateRejected(l, input) ==>
      var posted := r.ledger.(history := l.history);
      && AssetsMoved(l.assets, posted.assets, input.assetId, input.amount)
      && LoansMoved(l.loans, posted.loans, input.loanId, -input.saving)
      && posted.statements == l.statements + [NewStatement(id, input, Normalise(CategoryTypeOf(l, input.categoryId).value, input.amount))]
      && posted.mainCategories == l.mainCategories && posted.categories == l.categories
      && (if input.assetId.Some? || input.loanId.Some? then SnapshotOutcome(posted.(history := l.history), r, now)
          else r.fault.None? && r.ledger.history == l.history)
  {
    match CategoryTypeOf(l, input.categoryId)
    case None => Step(l, Some(MissingRow))
    case Some(t) =>
      if input.assetId.Some? && IndexOf(l.assets, AssetKey, input.assetId.value).None? then Step(l, Some(MissingRow))
      else if input.loanId.Some? && IndexOf(l.loans, LoanKey, input.loanId.value).None? then Step(l, Some(MissingRow))
      else
        var posted := Post(l, NewStatement(id, input, Normalise(t, input.amount)), input.amount, -input.saving);
        if input.assetId.Some? || input.loanId.Some? then Snapshot(posted, now) else Step(posted, None)
  }

  /** `update_statement`. `categoryType` is the type of the requested
      category as the code resolves it. No balance moves and no snapshot is
      taken. */
  function UpdateStatement(l: Ledger, id: Id, input: StatementInput, categoryType: int): (r: Step)
    requires Wellformed(l)
    ensures Wellformed(r.ledger)
    ensures !HasKey(l.statements, StatementKey, id) <==> r.fault == Some(MissingRow)
    ensures r.fault.Some? ==> r.ledger == l
    ensures r.ledger.(statements := l.statements) == l
    ensures |r.ledger.statements| == |l.statements|
    ensures forall j :: 0 <= j < |l.statements| ==>
      r.ledger.statements[j] == if l.statements[j].id == id then Rewrite(l.statements[j], input, categoryType) else l.statements[j]
  {
    match IndexOf(l.statements, StatementKey, id)
    case None => Step(l, Some(MissingRow))
    case Some(k) =>
      var statements := l.statements[k := Rewrite(l.statements[k], input, categoryType)];
      assert forall j :: 0 <= j < |l.statements| ==> statements[j].id == l.statements[j].id;
      SameKeys(l.statements, statements, StatementKey);
      forall j | 0 <= j < |l.statements|
        ensures statements[j] == if l.statements[j].id == id then Rewrite(l.statements[j], input, categoryType) else l.statements[j]
      {
        IndexOfUnique(l.statements, StatementKey, id, j);
      }
      assert LinksResolve(statements, l.assets, l.loans) by {
        forall j | 0 <= j < |statements|
          ensures statements[j].assetId == l.statements[j].assetId && statements[j].loanId == l.statements[j].loanId
        {}
      }
      Step(l.(statements := statements), None)
  }

  /** `delete_statement`'s asset rule: in both branches of the code the
      asset drops by the magnitude of the stored amount. */
  function AssetReversal(stored: int): (delta: int)
    ensures delta == -Abs(stored)
  {
    if stored < 0 then stored else -stored
  }

  function RemoveAt<T>(rows: seq<T>, i: int): (r: seq<T>)
    requires 0 <= i < |rows|
    ensures |r| == |rows| - 1
    ensures forall j :: 0 <= j < i ==> r[j] == rows[j]
    ensures forall j :: i <= j < |r| ==> r[j] == rows[j + 1]
  {
    rows[..i] + rows[i + 1..]
  }

  /** Removing the row with a key keeps the other rows' keys unique. */
  lemma RemoveKeepsUnique<T>(rows: seq<T>, i: int, key: T -> Id)
    requires 0 <= i < |rows| && UniqueKeys(rows, key)
    ensures UniqueKeys(RemoveAt(rows, i), key)
  {
    var r := RemoveAt(rows, i);
    forall a, b | 0 <= a < b < |r| ensures key(r[a]) != key(r[b]) {
      var a', b' := if a < i then a else a + 1, if b < i then b else b + 1;
      assert r[a] == rows[a'] && r[b] == rows[b'];
    }
  }

  /** The ledger a delete commits when its links resolve: the balances
      moved by the given deltas and the row at `k` removed. Shared with the
      corrected variant. */
  function Unpost(l: Ledger, k: int, assetDelta: int, loanDelta: int): (p: Ledger)
    requires Wellformed(l)
    requires 0 <= k < |l.statements|
    ensures Wellformed(p)
    ensures AssetsMoved(l.assets, p.assets, l.statements[k].assetId, assetDelta)
    ensures LoansMoved(l.loans, p.loans, l.statements[k].loanId, loanDelta)
    ensures p.statements == RemoveAt(l.statements, k)
    ensures p.mainCategories == l.mainCategories && p.categories == l.categories && p.history == l.history
  {
    var s := l.statements[k];
    var p := l.(assets := ShiftAsset(l.assets, s.assetId, assetDelta),
                loans := ShiftLoan(l.loans, s.loanId, loanDelta),
                statements := RemoveAt(l.statements, k));
    RemoveKeepsUnique(l.statements, k, StatementKey);
    assert LinksResolve(p.statements, p.assets, p.loans) by {
      forall j | 0 <= j < |p.statements|
        ensures p.statements[j].assetId.Some? ==> HasKey(p.assets, AssetKey, p.statements[j].assetId.value)
        ensures p.statements[j].loanId.Some? ==> HasKey(p.loans, LoanKey, p.statements[j].loanId.value)
      {
        assert p.statements[j] == l.statements[if j < k then j else j + 1];
      }
    }
    p
  }

  /** `delete_statement`. The linked asset drops by |stored amount|; the
      linked loan drops by the stored `amount` (a create moved it by
      `saving`); the row is removed and no snapshot is taken. */
  function DeleteStatement(l: Ledger, id: Id): (r: Step)
    requires Wellformed(l)
    ensures Wellformed(r.ledger)
    ensures r.ledger.history == l.history
    ensures !HasKey(l.statements, StatementKey, id) <==> r.fault.Some?
    ensures r.fault.Some? ==> r == Step(l, Some(MissingRow))
    ensures r.fault.None? ==>
      var s := l.statements[IndexOf(l.statements, StatementKey, id).value];
      && AssetsMoved(l.assets, r.ledger.assets, s.assetId, -Abs(s.amount))
      && LoansMoved(l.loans, r.ledger.loans, s.loanId, -s.amount)
      && r.ledger.statements == RemoveAt(l.statements, IndexOf(l.statements, StatementKey, id).value)
      && r.ledger.mainCategories == l.mainCategories && r.ledger.categories == l.categories
  {
    match IndexOf(l.statements, StatementKey, id)
    case None => Step(l, Some(MissingRow))
    case Some(k) =>
      var s := l.statements[k];
      var p := Unpost(l, k, AssetReversal(s.amount), -s.amount);
      assert AssetsMoved(l.assets, p.assets, s.assetId, -Abs(s.amount));
      Step(p, None)
  }

  // ---------------------------------------------------------------------
  // Loans and assets (app/routes.py:168-185, 306-333, 343-424)

  /** `loan_payment`: one more month paid and the scheduled payment taken
      off the balance, then a snapshot. */
  function LoanPayment(l: Ledger, id: Id, now: DateTime): (r: Step)
    requires Wellformed(l)
    ensures Wellformed(r.ledger)
    ensures !HasKey(l.loans, LoanKey, id) ==> r == Step(l, Some(MissingRow))
    ensures HasKey(l.loans, LoanKey, id) && l.loans[IndexOf(l.loans, LoanKey, id).value].paymentAmount.None? ==>
      r == Step(l, Some(MissingPayment))
    ensures HasKey(l.loans, LoanKey, id) && l.loans[IndexOf(l.loans, LoanKey, id).value].paymentAmount.Some? ==>
      var p := l.loans[IndexOf(l.loans, LoanKey, id).value].paymentAmount.value;
      var posted := r.ledger.(history := l.history);
      && posted.(loans := l.loans) == l
      && |posted.loans| == |l.loans|
      && (forall j :: 0 <= j < |l.loans| ==>
            posted.loans[j] == (if l.loans[j].id == id
              then l.loans[j].(currentMonth := l.loans[j].currentMonth + 1, amount := l.loans[j].amount - p)
              else l.loans[j]))
      && SnapshotOutcome(posted, r, now)
  {
    match IndexOf(l.loans, LoanKey, id)
    case None => Step(l, Some(MissingRow))
    case Some(i) =>
      var loan := l.loans[i];
      match loan.paymentAmount
      case None => Step(l, Some(MissingPayment))
      case Some(p) =>
        var loans := l.loans[i := loan.(currentMonth := loan.currentMonth + 1, amount := loan.amount - p)];
        forall j | 0 <= j < |l.loans|
          ensures loans[j] == if l.loans[j].id == id then l.loans[j].(currentMonth := l.loans[j].currentMonth + 1, amount := l.loans[j].amount - p) else l.loans[j]
        {
          IndexOfUnique(l.loans, LoanKey, id, j);
        }
        SameKeys(l.loans, loans, LoanKey);
        Snapshot(l.(loans := loans), now)
  }

  datatype AssetInput = AssetInput(name: string, assetType: int, amount: int, description: Option<string>)

  function AssetOf(id: Id, input: AssetInput): Asset {
    Asset(id, input.name, input.assetType, input.amount, input.description)
  }

  /** `create_asset`: the row is added, then a snapshot. */
  function CreateAsset(l: Ledger, id: Id, input: AssetInput, now: DateTime): (r: Step)
    requires Wellformed(l)
    requires !HasKey(l.assets, AssetKey, id)
    ensures Wellformed(r.ledger)
    ensures var posted := l.(assets := l.assets + [AssetOf(id, input)]);
      SnapshotOutcome(posted, r, now)
    ensures r.fault.Some? <==> |l.loans| == 0
  {
    var assets := l.assets + [AssetOf(id, input)];
    assert forall a :: HasKey(l.assets, AssetKey, a) ==> HasKey(assets, AssetKey, a) by {
      forall a | HasKey(l.assets, AssetKey, a) ensures HasKey(assets, AssetKey, a) {
        var j :| 0 <= j < |l.assets| && l.assets[j].id == a;
        assert assets[j] == l.assets[j];
      }
    }
    Snapshot(l.(assets := assets), now)
  }

  /** `update_asset`: every field of the request replaces the stored one,
      the id is kept, then a snapshot. */
  function UpdateAsset(l: Ledger, id: Id, input: AssetInput, now: DateTime): (r: Step)
    requires Wellformed(l)
    ensures Wellformed(r.ledger)
    ensures !HasKey(l.assets, AssetKey, id) <==> r.fault == Some(MissingRow)
    ensures r.fault == Some(MissingRow) ==> r.ledger == l
    ensures HasKey(l.assets, AssetKey, id) ==>
      var posted := r.ledger.(history := l.history);
      && posted.(assets := l.assets) == l
      && |posted.assets| == |l.assets|
      && (forall j :: 0 <= j < |l.assets| ==> posted.assets[j] == if l.assets[j].id == id then AssetOf(id, input) else l.assets[j])
      && SnapshotOutcome(posted, r, now)
  {
    match IndexOf(l.assets, AssetKey, id)
    case None => Step(l, Some(MissingRow))
    case Some(i) =>
      var assets := l.assets[i := AssetOf(id, input)];
      forall j | 0 <= j < |l.assets|
        ensures assets[j] == if l.assets[j].id == id then AssetOf(id, input) else l.assets[j]
      {
        IndexOfUnique(l.assets, AssetKey, id, j);
      }
      SameKeys(l.assets, assets, AssetKey);
      Snapshot(l.(assets := assets), now)
  }

  /** The statement with its asset link cleared when it names `id`, as the
      ORM does to the children of a deleted parent. */
  function UnlinkAsset(s: Statement, id: Id): Statement {
    if s.assetId == Some(id) then s.(assetId := None) else s
  }

  function UnlinkLoan(s: Statement, id: Id): Statement {
    if s.loanId == Some(id) then s.(loanId := None) else s
  }

  /** Every statement with its link to asset `id` cleared. */
  function UnlinkAssets(statements: seq<Statement>, id: Id): (r: seq<Statement>)
    ensures |r| == |statements|
    ensures forall j :: 0 <= j < |r| ==> r[j] == statements[j].(assetId := r[j].assetId)
    ensures forall j :: 0 <= j < |r| && statements[j].assetId != Some(id) ==> r[j] == statements[j]
    ensures forall j :: 0 <= j < |r| && statements[j].assetId == Some(id) ==> r[j].assetId.None?
  {
    seq(|statements|, j requires 0 <= j < |statements| => UnlinkAsset(statements[j], id))
  }

  function UnlinkLoans(statements: seq<Statement>, id: Id): (r: seq<Statement>)
    ensures |r| == |statements|
    ensures forall j :: 0 <= j < |r| ==> r[j] == statements[j].(loanId := r[j].loanId)
    ensures forall j :: 0 <= j < |r| && statements[j].loanId != Some(id) ==> r[j] == statements[j]
    ensures forall j :: 0 <= j < |r| && statements[j].loanId == Some(id) ==> r[j].loanId.None?
  {
    seq(|statements|, j requires 0 <= j < |statements| => UnlinkLoan(statements[j], id))
  }

  predicate AssetInUse(l: Ledger, id: Id) {
    exists m :: 0 <= m < |l.mainCategories| && l.mainCategories[m].assetId == Some(id)
  }

  /** Removing the row at `i` drops exactly its key from a table of unique keys. */
  lemma RemoveKeys<T>(rows: seq<T>, i: int, key: T -> Id)
    requires 0 <= i < |rows| && UniqueKeys(rows, key)
    ensures forall x :: HasKey(RemoveAt(rows, i), key, x) <==> HasKey(rows, key, x) && x != key(rows[i])
  {
    var r := RemoveAt(rows, i);
    forall x | HasKey(rows, key, x) && x != key(rows[i]) ensures HasKey(r, key, x) {
      var j :| 0 <= j < |rows| && key(rows[j]) == x;
      assert key(r[if j < i then j else j - 1]) == x;
    }
    forall x | HasKey(r, key, x) ensures HasKey(rows, key, x) && x != key(rows[i]) {
      var j :| 0 <= j < |r| && key(r[j]) == x;
      assert key(rows[if j < i then j else j + 1]) == x;
    }
  }

  /** Dropping an asset row and clearing the links to it keeps the ledger
      well formed, and the id is gone from the table. */
  lemma DropAssetKeepsWellformed(l: Ledger, i: int, id: Id)
    requires Wellformed(l)
    requires 0 <= i < |l.assets| && l.assets[i].id == id
    ensures !HasKey(RemoveAt(l.assets, i), AssetKey, id)
    ensures Wellformed(l.(assets := RemoveAt(l.assets, i), statements := UnlinkAssets(l.statements, id)))
  {
    var assets := RemoveAt(l.assets, i);
    var statements := UnlinkAssets(l.statements, id);
    RemoveKeepsUnique(l.assets, i, AssetKey);
    RemoveKeys(l.assets, i, AssetKey);
    assert forall j :: 0 <= j < |l.statements| ==> StatementKey(statements[j]) == StatementKey(l.statements[j]);
    SameKeys(l.statements, statements, StatementKey);
    assert LinksResolve(statements, assets, l.loans) by {
      forall k | 0 <= k < |statements|
        ensures statements[k].assetId.Some? ==> HasKey(assets, AssetKey, statements[k].assetId.value)
        ensures statements[k].loanId.Some? ==> HasKey(l.loans, LoanKey, statements[k].loanId.value)
      {
        assert statements[k] == UnlinkAsset(l.statements[k], id);
      }
    }
  }

  lemma DropLoanKeepsWellformed(l: Ledger, i: int, id: Id)
    requires Wellformed(l)
    requires 0 <= i < |l.loans| && l.loans[i].id == id
    ensures !HasKey(RemoveAt(l.loans, i), LoanKey, id)
    ensures Wellformed(l.(loans := RemoveAt(l.loans, i), statements := UnlinkLoans(l.statements, id)))
  {
    var loans := RemoveAt(l.loans, i);
    var statements := UnlinkLoans(l.statements, id);
    RemoveKeepsUnique(l.loans, i, LoanKey);
    RemoveKeys(l.loans, i, LoanKey);
    assert forall j :: 0 <= j < |l.statements| ==> StatementKey(statements[j]) == StatementKey(l.statements[j]);
    SameKeys(l.statements, statements, StatementKey);
    assert LinksResolve(statements, l.assets, loans) by {
      forall k | 0 <= k < |statements|
        ensures statements[k].assetId.Some? ==> HasKey(l.assets, AssetKey, statements[k].assetId.value)
        ensures statements[k].loanId.Some? ==> HasKey(loans, LoanKey, statements[k].loanId.value)
      {
        assert statements[k] == UnlinkLoan(l.statements[k], id);
      }
    }
  }

  /** `delete_asset`: the row is removed and the statements that named it
      lose their asset link, then a snapshot. A main category that still
      names the asset makes the database refuse the delete. */
  function DeleteAsset(l: Ledger, id: Id, now: DateTime): (r: Step)
    requires Wellformed(l)
    ensures Wellformed(r.ledger)
    ensures !HasKey(l.assets, AssetKey, id) ==> r == Step(l, Some(MissingRow))
    ensures HasKey(l.assets, AssetKey, id) && AssetInUse(l, id) ==> r == Step(l, Some(ForeignKeyViolation))
    ensures HasKey(l.assets, AssetKey, id) && !AssetInUse(l, id) ==>
      var posted := r.ledger.(history := l.history);
      && posted.(assets := l.assets, statements := l.statements) == l
      && posted.assets == RemoveAt(l.assets, IndexOf(l.assets, AssetKey, id).value)
      && !HasKey(posted.assets, AssetKey, id)
      && |posted.statements| == |l.statements|
      && (forall j :: 0 <= j < |l.statements| ==> posted.statements[j] == UnlinkAsset(l.statements[j], id))
      && SnapshotOutcome(posted, r, now)
  {
    match IndexOf(l.assets, AssetKey, id)
    case None => Step(l, Some(MissingRow))
    case Some(i) =>
      if AssetInUse(l, id) then Step(l, Some(ForeignKeyViolation))
      else
        DropAssetKeepsWellformed(l, i, id);
        Snapshot(l.(assets := RemoveAt(l.assets, i), statements := UnlinkAssets(l.statements, id)), now)
  }

  datatype LoanInput = LoanInput(
    name: string,
    currentMonth: int,
    paymentAmount: Option<int>,
    amount: int,
    description: Option<string>)

  /** `create_loan`: the row is added, then a snapshot. A payment amount
      left NULL in the request takes the column default 0, because the ORM
      leaves NULL attributes out of an INSERT. */
  function CreateLoan(l: Ledger, id: Id, input: LoanInput, now: DateTime): (r: Step)
    requires Wellformed(l)
    requires !HasKey(l.loans, LoanKey, id)
    ensures Wellformed(r.ledger)
    ensures var posted := l.(loans := l.loans + [Loan(id, input.name, input.currentMonth, Some(input.paymentAmount.GetOr(0)), input.amount, input.description)]);
      SnapshotOutcome(posted, r, now)
    ensures r.fault.Some? <==> |l.assets| == 0
    ensures r.ledger.loans[|l.loans|].paymentAmount.Some?
  {
    var loans := l.loans + [Loan(id, input.name, input.currentMonth, Some(input.paymentAmount.GetOr(0)), input.amount, input.description)];
    assert forall a :: HasKey(l.loans, LoanKey, a) ==> HasKey(loans, LoanKey, a) by {
      forall a | HasKey(l.loans, LoanKey, a) ensures HasKey(loans, LoanKey, a) {
        var j :| 0 <= j < |l.loans| && l.loans[j].id == a;
        assert loans[j] == l.loans[j];
      }
    }
    Snapshot(l.(loans := loans), now)
  }

  /** `update_loan`: the request's fields replace the stored ones (a NULL
      payment amount is written as NULL), the id and the rest are kept,
      then a snapshot. */
  function UpdateLoan(l: Ledger, id: Id, input: LoanInput, now: DateTime): (r: Step)
    requires Wellformed(l)
    ensures Wellformed(r.ledger)
    ensures !HasKey(l.loans, LoanKey, id) <==> r.fault == Some(MissingRow)
    ensures r.fault == Some(MissingRow) ==> r.ledger == l
    ensures HasKey(l.loans, LoanKey, id) ==>
      var posted := r.ledger.(history := l.history);
      && posted.(loans := l.loans) == l
      && |posted.loans| == |l.loans|
      && (forall j :: 0 <= j < |l.loans| ==>
            posted.loans[j] == (if l.loans[j].id == id
              then Loan(id, input.name, input.currentMonth, input.paymentAmount, input.amount, input.description)
              else l.loans[j]))
      && SnapshotOutcome(posted, r, now)
  {
    match IndexOf(l.loans, LoanKey, id)
    case None => Step(l, Some(MissingRow))
    case Some(i) =>
      var loan := Loan(id, input.name, input.currentMonth, input.paymentAmount, input.amount, input.description);
      var loans := l.loans[i := loan];
      forall j | 0 <= j < |l.loans|
        ensures loans[j] == if l.loans[j].id == id then loan else l.loans[j]
      {
        IndexOfUnique(l.loans, LoanKey, id, j);
      }
      SameKeys(l.loans, loans, LoanKey);
      Snapshot(l.(loans := loans), now)
  }

  /** `delete_loan`: the row is removed and the statements that named it
      lose their loan link, then a snapshot. */
  function DeleteLoan(l: Ledger, id: Id, now: DateTime): (r: Step)
    requires Wellformed(l)
    ensures Wellformed(r.ledger)
    ensures !HasKey(l.loans, LoanKey, id) ==> r == Step(l, Some(MissingRow))
    ensures HasKey(l.loans, LoanKey, id) ==>
      var posted := r.ledger.(history := l.history);
      && posted.(loans := l.loans, statements := l.statements) == l
      && posted.loans == RemoveAt(l.loans, IndexOf(l.loans, LoanKey, id).value)
      && !HasKey(posted.loans, LoanKey, id)
      && |posted.statements| == |l.statements|
      && (forall j :: 0 <= j < |l.statements| ==> posted.statements[j] == UnlinkLoan(l.statements[j], id))
      && SnapshotOutcome(posted, r, now)
  {
    match IndexOf(l.loans, LoanKey, id)
    case None => Step(l, Some(MissingRow))
    case Some(i) =>
      DropLoanKeepsWellformed(l, i, id);
      Snapshot(l.(loans := RemoveAt(l.loans, i), statements := UnlinkLoans(l.statements, id)), now)
  }
}

=== FILE: balance_laws.dfy ===
/** Properties that relate several balance-engine requests: how a
    statement create or a loan payment moves the recorded net worth, and
    when deleting a statement undoes its create as the code is written. */
module BalanceLaws {
  import opened Calendar
  import opened Models
  import opened Balance

  /** Moving one asset moves the asset total by the same amount, and only
      when the target exists. */
  lemma {:induction false} AssetsMovedSum(before: seq<Asset>, after: seq<Asset>, target: Option<Id>, delta: int)
    requires UniqueKeys(before, AssetKey)
    requires AssetsMoved(before, after, target, delta)
    ensures Sum(after, AssetAmount) == Sum(before, AssetAmount) + (if Hit(before, AssetKey, target) then delta else 0)
  {
    if |before| > 0 {
      assert AssetsMoved(before[1..], after[1..], target, delta) by {
        forall j | 0 <= j < |before[1..]| ensures after[1..][j] == MoveAsset(before[1..][j], target, delta) {
          assert after[j + 1] == MoveAsset(before[j + 1], target, delta);
        }
      }
      AssetsMovedSum(before[1..], after[1..], target, delta);
      var here := target == Some(before[0].id);
      if here {
        forall j | 0 <= j < |before[1..]| ensures before[1..][j].id != target.value {
          assert AssetKey(before[0]) != AssetKey(before[j + 1]);
        }
      }
      assert Hit(before, AssetKey, target) <==> here || Hit(before[1..], AssetKey, target) by {
        if Hit(before, AssetKey, target) && !here {
          var j :| 0 <= j < |before| && AssetKey(before[j]) == target.value;
          assert AssetKey(before[1..][j - 1]) == target.value;
        }
        if Hit(before[1..], AssetKey, target) {
          var j :| 0 <= j < |before[1..]| && AssetKey(before[1..][j]) == target.value;
          assert AssetKey(before[j + 1]) == target.value;
        }
      }
    }
  }

  lemma {:induction false} LoansMovedSum(before: seq<Loan>, after: seq<Loan>, target: Option<Id>, delta: int)
    requires UniqueKeys(before, LoanKey)
    requires LoansMoved(before, after, target, delta)
    ensures Sum(after, LoanAmount) == Sum(before, LoanAmount) + (if Hit(before, LoanKey, target) then delta else 0)
  {
    if |before| > 0 {
      assert LoansMoved(before[1..], after[1..], target, delta) by {
        forall j | 0 <= j < |before[1..]| ensures after[1..][j] == MoveLoan(before[1..][j], target, delta) {
          assert after[j + 1] == MoveLoan(before[j + 1], target, delta);
        }
      }
      LoansMovedSum(before[1..], after[1..], target, delta);
      var here := target == Some(before[0].id);
      if here {
        forall j | 0 <= j < |before[1..]| ensures before[1..][j].id != target.value {
          assert LoanKey(before[0]) != LoanKey(before[j + 1]);
        }
      }
      assert Hit(before, LoanKey, target) <==> here || Hit(before[1..], LoanKey, target) by {
        if Hit(before, LoanKey, target) && !here {
          var j :| 0 <= j < |before| && LoanKey(before[j]) == target.value;
          assert LoanKey(before[1..][j - 1]) == target.value;
        }
        if Hit(before[1..], LoanKey, target) {
          var j :| 0 <= j < |before[1..]| && LoanKey(before[1..][j]) == target.value;
          assert LoanKey(before[j + 1]) == target.value;
        }
      }
    }
  }

  /** A linked statement create records a net worth that is the previous
      one plus the raw request amount (asset side) plus the saving (loan
      side), whatever the category type and the discount. */
  lemma CreateShiftsNetWorth(l: Ledger, id: Id, input: StatementInput, now: DateTime)
    requires Wellformed(l)
    requires !HasKey(l.statements, StatementKey, id)
    requires !CreateRejected(l, input)
    requires input.assetId.Some? || input.loanId.Some?
    requires NetWorth(l).Some?
    ensures var r := CreateStatement(l, id, input, now);
      && r.fault.None?
      && r.ledger.history == l.history + [HistoryRow(
           NetWorth(l).value
             + (if input.assetId.Some? then input.amount else 0)
             + (if input.loanId.Some? then input.saving else 0),
           now)]
  {
    var c := CreateMovesThenSnapshots(l, id, input, now);
    SnapshotAfterMoves(l, c.ledger, now, input.assetId, input.amount, input.loanId, -input.saving);
  }

  /** What an accepted create on non-empty tables does to the balances and
      the history, in the terms the snapshot law takes. */
  lemma CreateMovesThenSnapshots(l: Ledger, id: Id, input: StatementInput, now: DateTime) returns (c: Step)
    requires Wellformed(l)
    requires !HasKey(l.statements, StatementKey, id)
    requires !CreateRejected(l, input)
    requires input.assetId.Some? || input.loanId.Some?
    requires |l.assets| > 0 && |l.loans| > 0
    ensures c == CreateStatement(l, id, input, now)
    ensures c.fault.None?
    ensures MovedThenSnapshotted(l, c.ledger, now, input.assetId, input.amount, input.loanId, -input.saving)
  {
    c := CreateStatement(l, id, input, now);
    CreateMoves(l, id, input, now);
    CreateSnapshot(l, id, input, now);
  }

  /** `after` moved the given asset and loan of `l` (or none) and then
      appended a snapshot of itself. */
  predicate MovedThenSnapshotted(l: Ledger, after: Ledger, now: DateTime,
                                 assetTarget: Option<Id>, assetDelta: int, loanTarget: Option<Id>, loanDelta: int)
  {
    && UniqueKeys(l.assets, AssetKey) && UniqueKeys(l.loans, LoanKey)
    && |l.assets| > 0 && |l.loans| > 0
    && (assetTarget.Some? ==> HasKey(l.assets, AssetKey, assetTarget.value))
    && (loanTarget.Some? ==> HasKey(l.loans, LoanKey, loanTarget.value))
    && AssetsMoved(l.assets, after.assets, assetTarget, assetDelta)
    && LoansMoved(l.loans, after.loans, loanTarget, loanDelta)
    && Snapshotted(l.history, after, now)
  }

  /** A snapshot taken after moving existing assets and loans (or none)
      records the earlier net worth shifted by both moves. */
  lemma SnapshotAfterMoves(l: Ledger, after: Ledger, now: DateTime,
                           assetTarget: Option<Id>, assetDelta: int, loanTarget: Option<Id>, loanDelta: int)
    requires MovedThenSnapshotted(l, after, now, assetTarget, assetDelta, loanTarget, loanDelta)
    ensures after.history == l.history + [HistoryRow(
      NetWorth(l).value
        + (if assetTarget.Some? then assetDelta else 0)
        - (if loanTarget.Some? then loanDelta else 0),
      now)]
  {
    AssetsMovedSum(l.assets, after.assets, assetTarget, assetDelta);
    LoansMovedSum(l.loans, after.loans, loanTarget, loanDelta);
  }

  /** A linked, accepted create on non-empty tables takes its snapshot of
      the tables it committed. */
  lemma CreateSnapshot(l: Ledger, id: Id, input: StatementInput, now: DateTime)
    requires Wellformed(l)
    requires !HasKey(l.statements, StatementKey, id)
    requires !CreateRejected(l, input)
    requires input.assetId.Some? || input.loanId.Some?
    requires |l.assets| > 0 && |l.loans| > 0
    ensures var c := CreateStatement(l, id, input, now);
      c.fault.None? && Snapshotted(l.history, c.ledger, now)
  {
  }

  /** A loan payment raises the recorded net worth by the payment amount. */
  lemma LoanPaymentShiftsNetWorth(l: Ledger, id: Id, now: DateTime)
    requires Wellformed(l)
    requires HasKey(l.loans, LoanKey, id)
    requires l.loans[IndexOf(l.loans, LoanKey, id).value].paymentAmount.Some?
    requires NetWorth(l).Some?
    ensures var r := LoanPayment(l, id, now);
      && r.fault.None?
      && r.ledger.history == l.history + [HistoryRow(
           NetWorth(l).value + l.loans[IndexOf(l.loans, LoanKey, id).value].paymentAmount.value, now)]
  {
    var r := LoanPayment(l, id, now);
    var i := IndexOf(l.loans, LoanKey, id).value;
    var p := l.loans[i].paymentAmount.value;
    assert r.ledger.loans == l.loans[i := l.loans[i].(currentMonth := l.loans[i].currentMonth + 1, amount := l.loans[i].amount - p)] by {
      forall j | 0 <= j < |l.loans| ensures r.ledger.loans[j] == l.loans[i := l.loans[i].(currentMonth := l.loans[i].currentMonth + 1, amount := l.loans[i].amount - p)][j] {
        IndexOfUnique(l.loans, LoanKey, id, j);
      }
    }
    SumUpdate(l.loans, i, l.loans[i].(currentMonth := l.loans[i].currentMonth + 1, amount := l.loans[i].amount - p), LoanAmount);
  }

  /** The new row sits after every existing row, so a create's statement
      is found at the end of the table. */
  lemma FreshRowIsLast(l: Ledger, s: Statement)
    requires UniqueKeys(l.statements + [s], StatementKey)
    ensures IndexOf(l.statements + [s], StatementKey, s.id) == Some(|l.statements|)
  {
    IndexOfUnique(l.statements + [s], StatementKey, s.id, |l.statements|);
  }

  /** Two successive moves of an existing asset leave the table as it was
      exactly when they cancel. */
  lemma AssetMovesCancel(a: seq<Asset>, b: seq<Asset>, c: seq<Asset>, target: Option<Id>, d1: int, d2: int)
    requires AssetsMoved(a, b, target, d1) && AssetsMoved(b, c, target, d2)
    requires Hit(a, AssetKey, target)
    ensures c == a <==> d1 + d2 == 0
  {
    var j :| 0 <= j < |a| && AssetKey(a[j]) == target.value;
    assert b[j].amount == a[j].amount + d1;
    assert c[j].amount == a[j].amount + d1 + d2;
    if d1 + d2 == 0 {
      forall k | 0 <= k < |a| ensures c[k] == a[k] {
        assert b[k] == MoveAsset(a[k], target, d1);
      }
    }
  }

  /** Two successive moves of an existing loan leave the table as it was
      exactly when they cancel. */
  lemma LoanMovesCancel(a: seq<Loan>, b: seq<Loan>, c: seq<Loan>, target: Option<Id>, d1: int, d2: int)
    requires LoansMoved(a, b, target, d1) && LoansMoved(b, c, target, d2)
    requires Hit(a, LoanKey, target)
    ensures c == a <==> d1 + d2 == 0
  {
    var j :| 0 <= j < |a| && LoanKey(a[j]) == target.value;
    assert b[j].amount == a[j].amount + d1;
    assert c[j].amount == a[j].amount + d1 + d2;
    if d1 + d2 == 0 {
      forall k | 0 <= k < |a| ensures c[k] == a[k] {
        assert b[k] == MoveLoan(a[k], target, d1);
      }
    }
  }

  /** The balance moves of an accepted create. */
  lemma CreateMoves(l: Ledger, id: Id, input: StatementInput, now: DateTime)
    requires Wellformed(l)
    requires !HasKey(l.statements, StatementKey, id)
    requires !CreateRejected(l, input)
    ensures var c := CreateStatement(l, id, input, now);
      && AssetsMoved(l.assets, c.ledger.assets, input.assetId, input.amount)
      && LoansMoved(l.loans, c.ledger.loans, input.loanId, -input.saving)
  {
  }

  /** The balance moves of deleting the row a create has just inserted:
      the delete reads back the stored amount. */
  lemma DeleteAfterCreateMoves(l: Ledger, id: Id, input: StatementInput, now: DateTime)
    requires Wellformed(l)
    requires !HasKey(l.statements, StatementKey, id)
    requires !CreateRejected(l, input)
    ensures var c := CreateStatement(l, id, input, now);
      var d := DeleteStatement(c.ledger, id);
      var stored := Normalise(CategoryTypeOf(l, input.categoryId).value, input.amount);
      && AssetsMoved(c.ledger.assets, d.ledger.assets, input.assetId, -Abs(stored))
      && LoansMoved(c.ledger.loans, d.ledger.loans, input.loanId, -stored)
  {
    var c := CreateStatement(l, id, input, now);
    var s := NewStatement(id, input, Normalise(CategoryTypeOf(l, input.categoryId).value, input.amount));
    assert c.ledger.statements == l.statements + [s];
    FreshRowIsLast(l, s);
  }

  /** As the code is written, deleting an asset-linked statement right after
      creating it restores the asset balances exactly when the request
      amount was not negative: the create added the raw amount, the delete
      takes off its magnitude. */
  lemma AssetRoundTripAsWritten(l: Ledger, id: Id, input: StatementInput, now: DateTime)
    requires Wellformed(l)
    requires !HasKey(l.statements, StatementKey, id)
    requires !CreateRejected(l, input)
    requires input.assetId.Some?
    ensures var c := CreateStatement(l, id, input, now);
      DeleteStatement(c.ledger, id).ledger.assets == l.assets <==> input.amount >= 0
  {
    var c := CreateStatement(l, id, input, now);
    var d := DeleteStatement(c.ledger, id);
    var stored := Normalise(CategoryTypeOf(l, input.categoryId).value, input.amount);
    CreateMoves(l, id, input, now);
    DeleteAfterCreateMoves(l, id, input, now);
    AssetMovesCancel(l.assets, c.ledger.assets, d.ledger.assets, input.assetId, input.amount, -Abs(stored));
  }

  /** As the code is written, deleting a loan-linked statement right after
      creating it restores the loan balances exactly when the stored amount
      is the negated saving: the create took off `saving`, the delete takes
      off the stored `amount`. */
  lemma LoanRoundTripAsWritten(l: Ledger, id: Id, input: StatementInput, now: DateTime)
    requires Wellformed(l)
    requires !HasKey(l.statements, StatementKey, id)
    requires !CreateRejected(l, input)
    requires input.loanId.Some?
    ensures var c := CreateStatement(l, id, input, now);
      var stored := Normalise(CategoryTypeOf(l, input.categoryId).value, input.amount);
      DeleteStatement(c.ledger, id).ledger.loans == l.loans <==> stored == -input.saving
  {
    var c := CreateStatement(l, id, input, now);
    var d := DeleteStatement(c.ledger, id);
    var stored := Normalise(CategoryTypeOf(l, input.categoryId).value, input.amount);
    CreateMoves(l, id, input, now);
    DeleteAfterCreateMoves(l, id, input, now);
    LoanMovesCancel(l.loans, c.ledger.loans, d.ledger.loans, input.loanId, -input.saving, -stored);
  }

  /** Updating a statement never moves a balance and never writes history,
      so a linked statement's balances drift from its new amount. */
  lemma UpdateLeavesBalances(l: Ledger, id: Id, input: StatementInput, categoryType: int)
    requires Wellformed(l)
    ensures var r := UpdateStatement(l, id, input, categoryType);
      r.ledger.assets == l.assets && r.ledger.loans == l.loans && r.ledger.history == l.history
      && NetWorth(r.ledger) == NetWorth(l)
  {
    var r := UpdateStatement(l, id, input, categoryType);
    assert r.ledger.(statements := l.statements) == l;
  }
}

=== FILE: breakdown.dfy ===
/** The per-category reports (app/routes.py:655-837): statements of a week
    or a month are joined to their category and main category, summed per
    category in the database, and the sums are then read back once for
    every category of the requested kind, in table order. A category with
    no statements reads 0. For the expense type (2) a negative sum is
    shown as its magnitude. */
module Breakdown {
  import opened Calendar
  import opened Models
  import opened Grouping

  /** The name of the trailing total row ("sum"). */
  const TotalRowName: string := "합계"

  /** The week of `d`: from the midnight of the Sunday on or before it, for
      seven days. */
  function WeekWindow(d: Date): Window {
    var sunday := SundayOnOrBefore(d);
    Window(Midnight(sunday), Midnight(sunday + 7), false)
  }

  /** The month of `d`: from the midnight of its first day up to and
      including the midnight after its last day. */
  function MonthWindow(d: Date): Window {
    Window(Midnight(Ordinal(FirstOfMonth(d))), Midnight(Ordinal(LastOfMonth(d)) + 1), true)
  }

  /** A statement is in the week of `d` exactly when its day is one of the
      seven days starting on the Sunday on or before `d`. */
  lemma WeekWindowDays(d: Date, t: DateTime)
    ensures InWindow(WeekWindow(d), t) <==> SundayOnOrBefore(d) <= Ordinal(t.date) < SundayOnOrBefore(d) + 7
  {
    CompareWithMidnight(t, SundayOnOrBefore(d));
    CompareWithMidnight(t, SundayOnOrBefore(d) + 7);
  }

  /** A statement is in the month of `d` when its day is in that month, and
      also when it is stamped exactly at midnight of the following day. */
  lemma MonthWindowDays(d: Date, t: DateTime)
    ensures InWindow(MonthWindow(d), t) <==>
      || Ordinal(FirstOfMonth(d)) <= Ordinal(t.date) <= Ordinal(LastOfMonth(d))
      || (Ordinal(t.date) == Ordinal(LastOfMonth(d)) + 1 && t.secondOfDay == 0)
  {
    CompareWithMidnight(t, Ordinal(FirstOfMonth(d)));
    CompareWithMidnight(t, Ordinal(LastOfMonth(d)) + 1);
  }

  /** Which rows a report lists and groups by: main categories of a type,
      categories under a main category of a type, or the categories of one
      main category. */
  datatype Scope =
    | MainsOfType(categoryType: int)
    | CategoriesOfType(categoryType: int)
    | CategoriesOfMain(mainId: Id)

  /** The filter a scope applies to a statement's main category: its type,
      or its id. */
  predicate Selects(scope: Scope, m: MainCategory) {
    match scope
    case MainsOfType(t) => m.categoryType == t
    case CategoriesOfType(t) => m.categoryType == t
    case CategoriesOfMain(mid) => m.id == mid
  }

  /** The group a statement falls into under `scope`, or None when its join
      fails or the scope's filter drops it. */
  function GroupKey(l: Ledger, s: Statement, scope: Scope): (k: Option<Id>)
    ensures k.Some? <==> JoinOf(l, s).Some? && Selects(scope, JoinOf(l, s).value.1)
    ensures k.Some? && scope.MainsOfType? ==> k.value == JoinOf(l, s).value.1.id
    ensures k.Some? && !scope.MainsOfType? ==> k.value == s.categoryId
  {
    match JoinOf(l, s)
    case None => None
    case Some(cm) =>
      match scope
      case MainsOfType(t) => if cm.1.categoryType == t then Some(cm.1.id) else None
      case CategoriesOfType(t) => if cm.1.categoryType == t then Some(cm.0.id) else None
      case CategoriesOfMain(mid) => if cm.1.id == mid then Some(cm.0.id) else None
  }

  /** One listed row: the id it is looked up by, its name, and the type of
      its main category. */
  datatype Slot = Slot(id: Id, name: string, mainType: int)

  /** One row per main category of type `t`, in table order. */
  function MainSlots(mains: seq<MainCategory>, t: int): (r: seq<Slot>)
    ensures forall s :: s in r ==> s.mainType == t
    ensures forall s :: s in r <==> exists m :: m in mains && m.categoryType == t && s == Slot(m.id, m.name, t)
  {
    Map(Select(mains, (m: MainCategory) => m.categoryType == t), (m: MainCategory) => Slot(m.id, m.name, t))
  }

  /** The main categories are listed in table order: row i is the slot of
      the i-th main category of type `t`, and each of them is listed exactly
      once. */
  lemma MainSlotsInOrder(mains: seq<MainCategory>, t: int) returns (idx: seq<int>)
    ensures Ascending(idx, |mains|)
    ensures |idx| == |MainSlots(mains, t)|
    ensures forall i :: 0 <= i < |idx| ==>
      mains[idx[i]].categoryType == t && MainSlots(mains, t)[i] == Slot(mains[idx[i]].id, mains[idx[i]].name, t)
    ensures forall j :: 0 <= j < |mains| && mains[j].categoryType == t ==> j in idx
  {
    idx := SelectInOrder(mains, (m: MainCategory) => m.categoryType == t);
  }

  /** Whether a category joins to a main category that `scope` selects;
      the main category's type when it does. */
  function CategoryJoin(l: Ledger, c: Category, scope: Scope): Option<int> {
    match c.mainCategoryId
    case None => None
    case Some(mid) =>
      match IndexOf(l.mainCategories, MainCategoryKey, mid)
      case None => None
      case Some(m) =>
        var main := l.mainCategories[m];
        match scope
        case MainsOfType(_) => None
        case CategoriesOfType(t) => if main.categoryType == t then Some(main.categoryType) else None
        case CategoriesOfMain(id) => if main.id == id then Some(main.categoryType) else None
  }

  /** One row per category that joins to a selected main category, in
      table order, carrying that main category's type. */
  function CategorySlots(l: Ledger, cs: seq<Category>, scope: Scope): (r: seq<Slot>)
    ensures |r| <= |cs|
    ensures forall s :: s in r <==>
      exists c :: c in cs && CategoryJoin(l, c, scope).Some? && s == Slot(c.id, c.name, CategoryJoin(l, c, scope).value)
  {
    Map(Select(cs, (c: Category) => CategoryJoin(l, c, scope).Some?), (c: Category) => CategorySlot(l, c, scope))
  }

  /** The row of a category; its main type is 0 when it does not join. */
  function CategorySlot(l: Ledger, c: Category, scope: Scope): Slot {
    Slot(c.id, c.name, CategoryJoin(l, c, scope).GetOr(0))
  }

  /** The categories are listed in table order: row i is the slot of the
      i-th category that joins to a selected main category, and each of
      them is listed exactly once. */
  lemma CategorySlotsInOrder(l: Ledger, cs: seq<Category>, scope: Scope) returns (idx: seq<int>)
    ensures Ascending(idx, |cs|)
    ensures |idx| == |CategorySlots(l, cs, scope)|
    ensures forall i :: 0 <= i < |idx| ==>
      && CategoryJoin(l, cs[idx[i]], scope).Some?
      && CategorySlots(l, cs, scope)[i] == Slot(cs[idx[i]].id, cs[idx[i]].name, CategoryJoin(l, cs[idx[i]], scope).value)
    ensures forall j :: 0 <= j < |cs| && CategoryJoin(l, cs[j], scope).Some? ==> j in idx
  {
    idx := SelectInOrder(cs, (c: Category) => CategoryJoin(l, c, scope).Some?);
  }

  /** The rows a report lists, in table order. */
  function Slots(l: Ledger, scope: Scope): seq<Slot> {
    match scope
    case MainsOfType(t) => MainSlots(l.mainCategories, t)
    case _ => CategorySlots(l, l.categories, scope)
  }

  /** The (key, amount, discount) rows the grouped query reads: statements
      in the window whose group `scope` defines. */
  function Entries(l: Ledger, ss: seq<Statement>, w: Window, scope: Scope): (es: seq<Entry>)
    ensures forall e :: e in es ==>
      exists s :: s in ss && InWindow(w, s.date) && GroupKey(l, s, scope) == Some(e.key) && e == Entry(e.key, s.amount, s.discount)
    ensures forall s :: s in ss && InWindow(w, s.date) && GroupKey(l, s, scope).Some? ==>
      Entry(GroupKey(l, s, scope).value, s.amount, s.discount) in es
  {
    if |ss| == 0 then []
    else
      var rest := Entries(l, ss[1..], w, scope);
      assert forall s :: s in ss <==> s == ss[0] || s in ss[1..];
      var k := GroupKey(l, ss[0], scope);
      if InWindow(w, ss[0].date) && k.Some? then [Entry(k.value, ss[0].amount, ss[0].discount)] + rest else rest
  }

  /** Reference sums: the amounts and discounts of the statements in the
      window that fall into group `key`. */
  function AmountIn(l: Ledger, ss: seq<Statement>, w: Window, scope: Scope, key: Id): int {
    if |ss| == 0 then 0
    else
      var here := if InWindow(w, ss[0].date) && GroupKey(l, ss[0], scope) == Some(key) then ss[0].amount else 0;
      here + AmountIn(l, ss[1..], w, scope, key)
  }

  function DiscountIn(l: Ledger, ss: seq<Statement>, w: Window, scope: Scope, key: Id): int {
    if |ss| == 0 then 0
    else
      var here := if InWindow(w, ss[0].date) && GroupKey(l, ss[0], scope) == Some(key) then ss[0].discount else 0;
      here + DiscountIn(l, ss[1..], w, scope, key)
  }

  /** Summing the grouped query's rows for a key is summing the matching
      statements directly. */
  lemma {:induction false} EntriesSums(l: Ledger, ss: seq<Statement>, w: Window, scope: Scope, key: Id)
    ensures SumFirst(Entries(l, ss, w, scope), key) == AmountIn(l, ss, w, scope, key)
    ensures SumSecond(Entries(l, ss, w, scope), key) == DiscountIn(l, ss, w, scope, key)
  {
    if |ss| > 0 {
      EntriesSums(l, ss[1..], w, scope, key);
      var rest := Entries(l, ss[1..], w, scope);
      var k := GroupKey(l, ss[0], scope);
      if InWindow(w, ss[0].date) && k.Some? {
        assert ([Entry(k.value, ss[0].amount, ss[0].discount)] + rest)[1..] == rest;
      }
    }
  }

  /** The sign rule of the reports: for the expense type a negative sum is
      shown as its magnitude. */
  function Flip(categoryType: int, x: int): (y: int)
    ensures categoryType == TYPE_EXPENSE ==> y >= 0 && (y == x || y == -x)
    ensures categoryType != TYPE_EXPENSE ==> y == x
  {
    if categoryType == TYPE_EXPENSE && x < 0 then -x else x
  }

  datatype Row = Row(name: string, amount: int, discount: int)

  /** Read one slot's sums from the groups, 0 when it has no group. */
  function RowFor(groups: seq<Entry>, slot: Slot, flipType: int): Row {
    match Lookup(groups, slot.id)
    case None => Row(slot.name, 0, 0)
    case Some(g) => Row(slot.name, Flip(flipType, g.first), g.second)
  }

  function TotalAmount(rows: seq<Row>): int {
    if |rows| == 0 then 0 else rows[0].amount + TotalAmount(rows[1..])
  }

  function TotalDiscount(rows: seq<Row>): int {
    if |rows| == 0 then 0 else rows[0].discount + TotalDiscount(rows[1..])
  }

  /** A total of amounts none of which is negative is not negative. */
  lemma {:induction false} TotalAmountNonNegative(rows: seq<Row>)
    requires forall i :: 0 <= i < |rows| ==> rows[i].amount >= 0
    ensures TotalAmount(rows) >= 0
  {
    if |rows| > 0 {
      assert forall i :: 0 <= i < |rows[1..]| ==> rows[1..][i] == rows[i + 1];
      TotalAmountNonNegative(rows[1..]);
    }
  }

  /** Rows none of whose amounts is negative keep that property once their
      total row is appended. */
  lemma WithTotalNonNegative(rows: seq<Row>, all: seq<Row>)
    requires forall i :: 0 <= i < |rows| ==> rows[i].amount >= 0
    requires all == rows + [Row(TotalRowName, TotalAmount(rows), TotalDiscount(rows))]
    ensures forall i :: 0 <= i < |all| ==> all[i].amount >= 0
  {
    TotalAmountNonNegative(rows);
  }

  /** The window and scope a category report uses: mode 1 is the week, by
      main categories or, with `sub`, by categories; mode 2 is the month by
      main categories. */
  function ReportWindow(mode: int, d: Date): Window {
    if mode == 1 then WeekWindow(d) else MonthWindow(d)
  }

  function ReportScope(mode: int, categoryType: int, sub: bool): Scope {
    if mode == 1 && sub then CategoriesOfType(categoryType) else MainsOfType(categoryType)
  }

  /** `statement_category`. Modes other than 1 and 2 return nothing. Each
      listed row carries its group's (sign-ruled) amount and discount, and
      a last row totals them. */
  function CategoryBreakdown(l: Ledger, mode: int, d: Date, categoryType: int, sub: bool): (r: Option<seq<Row>>)
    ensures r.Some? <==> mode == 1 || mode == 2
    ensures r.Some? ==>
      var w := ReportWindow(mode, d);
      var scope := ReportScope(mode, categoryType, sub);
      var slots := Slots(l, scope);
      && |r.value| == |slots| + 1
      && (forall i :: 0 <= i < |slots| ==>
            r.value[i] == Row(slots[i].name,
                              Flip(categoryType, AmountIn(l, l.statements, w, scope, slots[i].id)),
                              DiscountIn(l, l.statements, w, scope, slots[i].id)))
      && r.value[|slots|] == Row(TotalRowName, TotalAmount(r.value[..|slots|]), TotalDiscount(r.value[..|slots|]))
    ensures r.Some? && categoryType == TYPE_EXPENSE ==> forall i :: 0 <= i < |r.value| ==> r.value[i].amount >= 0
  {
    if mode != 1 && mode != 2 then None
    else
      var w := ReportWindow(mode, d);
      var scope := ReportScope(mode, categoryType, sub);
      var slots := Slots(l, scope);
      var es := Entries(l, l.statements, w, scope);
      var groups := GroupBy(es);
      var rows := seq(|slots|, i requires 0 <= i < |slots| => RowFor(groups, slots[i], categoryType));
      assert forall i :: 0 <= i < |slots| ==>
          rows[i] == Row(slots[i].name,
                         Flip(categoryType, AmountIn(l, l.statements, w, scope, slots[i].id)),
                         DiscountIn(l, l.statements, w, scope, slots[i].id)) by {
        forall i | 0 <= i < |slots|
          ensures rows[i] == Row(slots[i].name,
                                 Flip(categoryType, AmountIn(l, l.statements, w, scope, slots[i].id)),
                                 DiscountIn(l, l.statements, w, scope, slots[i].id))
        {
          GroupedSums(es, slots[i].id);
          EntriesSums(l, l.statements, w, scope, slots[i].id);
        }
      }
      var all := rows + [Row(TotalRowName, TotalAmount(rows), TotalDiscount(rows))];
      assert categoryType == TYPE_EXPENSE ==> forall i :: 0 <= i < |all| ==> all[i].amount >= 0 by {
        if categoryType == TYPE_EXPENSE {
          forall i | 0 <= i < |rows| ensures rows[i].amount >= 0 {
            assert rows[i] == RowFor(groups, slots[i], categoryType);
          }
          WithTotalNonNegative(rows, all);
        }
      }
      assert all[..|slots|] == rows;
      Some(all)
  }

  datatype NamedAmount = NamedAmount(name: string, amount: int)

  /** `statement_subcategory`: for mode 1 only, the week's sum for every
      category of one main category, sign-ruled by that main category's
      type; no total row. Other modes return nothing. */
  function SubcategoryBreakdown(l: Ledger, mode: int, d: Date, mainId: Id): (r: Option<seq<NamedAmount>>)
    ensures r.Some? <==> mode == 1
    ensures r.Some? ==>
      var slots := Slots(l, CategoriesOfMain(mainId));
      && |r.value| == |slots|
      && forall i :: 0 <= i < |slots| ==>
           r.value[i] == NamedAmount(slots[i].name,
                                     Flip(slots[i].mainType, AmountIn(l, l.statements, WeekWindow(d), CategoriesOfMain(mainId), slots[i].id)))
  {
    if mode != 1 then None
    else
      var scope := CategoriesOfMain(mainId);
      var slots := Slots(l, scope);
      var es := Entries(l, l.statements, WeekWindow(d), scope);
      var groups := GroupBy(es);
      var rows := seq(|slots|, i requires 0 <= i < |slots| =>
        var row := RowFor(groups, slots[i], slots[i].mainType);
        NamedAmount(row.name, row.amount));
      assert forall i :: 0 <= i < |slots| ==>
          rows[i] == NamedAmount(slots[i].name,
                                 Flip(slots[i].mainType, AmountIn(l, l.statements, WeekWindow(d), scope, slots[i].id))) by {
        forall i | 0 <= i < |slots|
          ensures rows[i] == NamedAmount(slots[i].name,
                                         Flip(slots[i].mainType, AmountIn(l, l.statements, WeekWindow(d), scope, slots[i].id)))
        {
          GroupedSums(es, slots[i].id);
          EntriesSums(l, l.statements, WeekWindow(d), scope, slots[i].id);
        }
      }
      Some(rows)
  }
}

=== FILE: calendar.dfy ===
/** Proleptic Gregorian dates as Python's `datetime` module numbers them.
    A `Date` is a valid civil date of years 1..9999; its ordinal counts days
    so that 0001-01-01 is day 1, and its weekday numbers Monday as 0 and
    Sunday as 6. A `DateTime` is a date plus the second within that day;
    sub-second precision is not modelled. Comparing a timestamp against a
    plain date compares it against that date's midnight, which is how the
    database promotes a DATE to a TIMESTAMP. */
module Calendar {

  const SecondsPerDay: int := 86400
  const Sunday: int := 6

  predicate IsLeap(y: int) {
    y % 4 == 0 && (y % 100 != 0 || y % 400 == 0)
  }

  function DaysInMonth(y: int, m: int): (n: int)
    requires 1 <= m <= 12
    ensures 28 <= n <= 31
    ensures n == 29 <==> m == 2 && IsLeap(y)
  {
    if m == 2 then (if IsLeap(y) then 29 else 28)
    else if m == 4 || m == 6 || m == 9 || m == 11 then 30
    else 31
  }

  datatype CivilDate = CivilDate(year: int, month: int, day: int) {
    predicate Valid() {
      1 <= year <= 9999 && 1 <= month <= 12 && 1 <= day <= DaysInMonth(year, month)
    }
  }

  type Date = d: CivilDate | d.Valid() witness CivilDate(1, 1, 1)

  /** Days in the years before `y`. */
  function DaysBeforeYear(y: int): int
    requires y >= 1
  {
    var p := y - 1;
    p * 365 + p / 4 - p / 100 + p / 400
  }

  /** Days in the months of year `y` before month `m`. */
  function DaysBeforeMonth(y: int, m: int): int
    requires 1 <= m <= 12
  {
    [0, 31, 59, 90, 120, 151, 181, 212, 243, 273, 304, 334][m - 1]
      + (if m > 2 && IsLeap(y) then 1 else 0)
  }

  function Ordinal(d: Date): int {
    DaysBeforeYear(d.year) + DaysBeforeMonth(d.year, d.month) + d.day
  }

  /** Weekday of a day ordinal: Monday is 0, Sunday is 6. */
  function WeekdayOf(ordinal: int): (w: int)
    ensures 0 <= w < 7
  {
    (ordinal + 6) % 7
  }

  function Weekday(d: Date): (w: int)
    ensures 0 <= w < 7
  {
    WeekdayOf(Ordinal(d))
  }

  /** The calendar day after `d`; year 9999 has no successor. */
  function NextDay(d: Date): (n: Date)
    requires !(d.year == 9999 && d.month == 12 && d.day == 31)
    ensures n.year == d.year || n.year == d.year + 1
  {
    if d.day < DaysInMonth(d.year, d.month) then CivilDate(d.year, d.month, d.day + 1)
    else if d.month < 12 then CivilDate(d.year, d.month + 1, 1)
    else CivilDate(d.year + 1, 1, 1)
  }

  lemma DaysBeforeNextMonth(y: int, m: int)
    requires 1 <= m < 12
    ensures DaysBeforeMonth(y, m + 1) == DaysBeforeMonth(y, m) + DaysInMonth(y, m)
  {
  }

  /** Stepping a year moves each leap-rule quotient exactly when the
      divisor divides the new year. */
  lemma QuotientSteps(y: int)
    requires y >= 1
    ensures y / 4 - (y - 1) / 4 == (if y % 4 == 0 then 1 else 0)
    ensures y / 100 - (y - 1) / 100 == (if y % 100 == 0 then 1 else 0)
    ensures y / 400 - (y - 1) / 400 == (if y % 400 == 0 then 1 else 0)
  {
  }

  lemma DaysBeforeNextYear(y: int)
    requires y >= 1
    ensures DaysBeforeYear(y + 1) == DaysBeforeYear(y) + DaysBeforeMonth(y, 12) + DaysInMonth(y, 12)
  {
    QuotientSteps(y);
    DivisorsOfCenturies(y);
    var a, b, c := y / 4 - (y - 1) / 4, y / 100 - (y - 1) / 100, y / 400 - (y - 1) / 400;
    assert DaysBeforeYear(y + 1) - DaysBeforeYear(y) == 365 + a - b + c;
    assert a - b + c == if IsLeap(y) then 1 else 0;
  }

  /** A multiple of 400 is a multiple of 100, and a multiple of 100 is a
      multiple of 4. */
  lemma DivisorsOfCenturies(y: int)
    ensures y % 400 == 0 ==> y % 100 == 0
    ensures y % 100 == 0 ==> y % 4 == 0
  {
    if y % 400 == 0 {
      var k := y / 400;
      assert y == 400 * k;
      assert y / 100 == 4 * k;
    }
    if y % 100 == 0 {
      var k := y / 100;
      assert y == 100 * k;
      assert y / 4 == 25 * k;
    }
  }

  /** A month's last day falls no later than the year's last day. */
  lemma MonthEndsInYear(y: int, m: int)
    requires 1 <= m <= 12
    ensures DaysBeforeMonth(y, m) + DaysInMonth(y, m) <= DaysBeforeMonth(y, 12) + DaysInMonth(y, 12)
  {
  }

  /** A month ends before any later month of the same year begins. */
  lemma MonthsIncrease(y: int, m: int, n: int)
    requires 1 <= m < n <= 12
    ensures DaysBeforeMonth(y, m) + DaysInMonth(y, m) <= DaysBeforeMonth(y, n)
  {
  }

  /** A year ends before any later year begins. */
  lemma {:induction false} YearsIncrease(y: int, z: int)
    requires 1 <= y < z
    ensures DaysBeforeYear(y + 1) <= DaysBeforeYear(z)
  {
    if z > y + 1 {
      YearsIncrease(y, z - 1);
      DaysBeforeNextYear(z - 1);
    }
  }

  /** The ordinal of a day lies within its year's range. */
  lemma OrdinalWithinYear(d: Date)
    ensures DaysBeforeYear(d.year) < Ordinal(d) <= DaysBeforeYear(d.year + 1)
  {
    MonthEndsInYear(d.year, d.month);
    DaysBeforeNextYear(d.year);
  }

  /** Ordinals follow calendar order: an earlier date has a smaller
      ordinal, so two dates share an ordinal only when they are the same
      day. */
  lemma OrdinalOrder(a: Date, b: Date)
    ensures (a.year, a.month, a.day) == (b.year, b.month, b.day) ==> Ordinal(a) == Ordinal(b)
    ensures || a.year < b.year
            || (a.year == b.year && a.month < b.month)
            || (a.year == b.year && a.month == b.month && a.day < b.day)
      ==> Ordinal(a) < Ordinal(b)
  {
    if a.year < b.year {
      OrdinalWithinYear(a);
      OrdinalWithinYear(b);
      YearsIncrease(a.year, b.year);
    } else if a.year == b.year && a.month < b.month {
      MonthsIncrease(a.year, a.month, b.month);
    }
  }

  lemma OrdinalInjective(a: Date, b: Date)
    ensures Ordinal(a) == Ordinal(b) <==> a == b
  {
    OrdinalOrder(a, b);
    OrdinalOrder(b, a);
  }

  /** Ordinals number consecutive calendar days consecutively, so adding a
      `timedelta` of k days is adding k to the ordinal. */
  lemma OrdinalNextDay(d: Date)
    requires !(d.year == 9999 && d.month == 12 && d.day == 31)
    ensures Ordinal(NextDay(d)) == Ordinal(d) + 1
  {
    if d.day < DaysInMonth(d.year, d.month) {
    } else if d.month < 12 {
      DaysBeforeNextMonth(d.year, d.month);
    } else {
      DaysBeforeNextYear(d.year);
    }
  }

  datatype Stamp = Stamp(date: Date, secondOfDay: int)

  type DateTime = s: Stamp | 0 <= s.secondOfDay < SecondsPerDay
    witness Stamp(CivilDate(1, 1, 1), 0)

  /** Seconds since the start of day 0, a total order on timestamps. */
  function Instant(t: DateTime): int {
    Ordinal(t.date) * SecondsPerDay + t.secondOfDay
  }

  /** The instant of the midnight that starts the day with this ordinal. */
  function Midnight(ordinal: int): int {
    ordinal * SecondsPerDay
  }

  /** An interval of instants closed at `lo`, and at `hi` too when
      `hiInclusive`; the date filters of the queries. */
  datatype Window = Window(lo: int, hi: int, hiInclusive: bool)

  predicate InWindow(w: Window, t: DateTime) {
    w.lo <= Instant(t) && (if w.hiInclusive then Instant(t) <= w.hi else Instant(t) < w.hi)
  }

  /** How a timestamp compares with a date's midnight, in terms of days. */
  lemma CompareWithMidnight(t: DateTime, ordinal: int)
    ensures Midnight(ordinal) <= Instant(t) <==> ordinal <= Ordinal(t.date)
    ensures Instant(t) < Midnight(ordinal) <==> Ordinal(t.date) < ordinal
    ensures Instant(t) <= Midnight(ordinal) <==>
      Ordinal(t.date) < ordinal || (Ordinal(t.date) == ordinal && t.secondOfDay == 0)
  {
  }

  /** Stepping back one day more than the weekday number lands on a Sunday. */
  lemma StepBackToSunday(o: int)
    ensures WeekdayOf(o - (WeekdayOf(o) + 1)) == Sunday
  {
    var q := (o + 6) / 7;
    assert o + 6 == 7 * q + WeekdayOf(o);
    assert o - (WeekdayOf(o) + 1) + 6 == 7 * (q - 1) + 6;
  }

  /** Week start used by the category breakdown: the latest Sunday on or
      before `d` (app/routes.py:665-668). */
  function SundayOnOrBefore(d: Date): (s: int)
    ensures WeekdayOf(s) == Sunday
    ensures s <= Ordinal(d) < s + 7
  {
    StepBackToSunday(Ordinal(d));
    if Weekday(d) == Sunday then Ordinal(d) else Ordinal(d) - (Weekday(d) + 1)
  }

  /** Week start used by the asset history and the net-worth delta:
      `d - (weekday + 1)` days, which maps a Sunday to the Sunday before it
      (app/routes.py:204, 266). */
  function SundayBefore(d: Date): (s: int)
    ensures WeekdayOf(s) == Sunday
    ensures Ordinal(d) - 7 <= s < Ordinal(d)
  {
    StepBackToSunday(Ordinal(d));
    Ordinal(d) - (Weekday(d) + 1)
  }

  /** The two week-start rules agree exactly on the days that are not Sundays. */
  lemma WeekStartsAgreeOffSunday(d: Date)
    ensures SundayOnOrBefore(d) == SundayBefore(d) <==> Weekday(d) != Sunday
    ensures Weekday(d) == Sunday ==> SundayBefore(d) == SundayOnOrBefore(d) - 7
  {
  }

  function FirstOfMonth(d: Date): (f: Date)
    ensures f.year == d.year && f.month == d.month && f.day == 1
    ensures Ordinal(f) <= Ordinal(d)
  {
    CivilDate(d.year, d.month, 1)
  }

  function LastOfMonth(d: Date): (e: Date)
    ensures e.year == d.year && e.month == d.month
    ensures Ordinal(d) <= Ordinal(e)
    ensures Ordinal(e) - Ordinal(FirstOfMonth(d)) == DaysInMonth(d.year, d.month) - 1
  {
    CivilDate(d.year, d.month, DaysInMonth(d.year, d.month))
  }
}

=== FILE: corrected.dfy ===
/** Statement create and delete as the ledger evidently intends them: the
    linked asset moves by the stored, sign-normalised amount offset by the
    discount (an expense lowers it by what was actually paid), the linked
    loan drops by `saving`, and deleting the row undoes both moves. The
    as-written rules live in `Balance`; the counterexamples below show where
    they part. The end of the module models create and update against the
    request schema as declared, which lacks `is_fixed`. */
module Corrected {
  import opened Calendar
  import opened Models
  import opened Balance

  /** What a statement does to its linked asset: the stored amount, offset
      by the discount. */
  function AssetEffect(stored: int, discount: int): int { stored + discount }

  /** `create_statement` with the asset moved by the stored amount plus the
      discount. */
  function CreateStatement(l: Ledger, id: Id, input: StatementInput, now: DateTime): (r: Step)
    requires Wellformed(l)
    requires !HasKey(l.statements, StatementKey, id)
    ensures Wellformed(r.ledger)
    ensures CreateRejected(l, input) <==> r.fault == Some(MissingRow)
    ensures CreateRejected(l, input) ==> r.ledger == l
    ensures !CreateRejected(l, input) ==>
      var stored := Normalise(CategoryTypeOf(l, input.categoryId).value, input.amount);
      var posted := r.ledger.(history := l.history);
      && AssetsMoved(l.assets, posted.assets, input.assetId, AssetEffect(stored, input.discount))
      && LoansMoved(l.loans, posted.loans, input.loanId, -input.saving)
      && posted.statements == l.statements + [NewStatement(id, input, stored)]
      && posted.mainCategories == l.mainCategories && posted.categories == l.categories
      && (if input.assetId.Some? || input.loanId.Some? then SnapshotOutcome(posted.(history := l.history), r, now)
          else r.fault.None? && r.ledger.history == l.history)
  {
    match CategoryTypeOf(l, input.categoryId)
    case None => Step(l, Some(MissingRow))
    case Some(t) =>
      if input.assetId.Some? && IndexOf(l.assets, AssetKey, input.assetId.value).None? then Step(l, Some(MissingRow))
      else if input.loanId.Some? && IndexOf(l.loans, LoanKey, input.loanId.value).None? then Step(l, Some(MissingRow))
      else
        var stored := Normalise(t, input.amount);
        var posted := Post(l, NewStatement(id, input, stored), AssetEffect(stored, input.discount), -input.saving);
        if input.assetId.Some? || input.loanId.Some? then Snapshot(posted, now) else Step(posted, None)
  }

  /** `delete_statement` taking back exactly what the corrected create put
      in: the asset moves by minus the stored amount plus discount, the loan
      gets its `saving` back. */
  function DeleteStatement(l: Ledger, id: Id): (r: Step)
    requires Wellformed(l)
    ensures Wellformed(r.ledger)
    ensures r.ledger.history == l.history
    ensures !HasKey(l.statements, StatementKey, id) <==> r.fault.Some?
    ensures r.fault.Some? ==> r == Step(l, Some(MissingRow))
    ensures r.fault.None? ==>
      var s := l.statements[IndexOf(l.statements, StatementKey, id).value];
      && AssetsMoved(l.assets, r.ledger.assets, s.assetId, -AssetEffect(s.amount, s.discount))
      && LoansMoved(l.loans, r.ledger.loans, s.loanId, s.saving)
      && r.ledger.statements == RemoveAt(l.statements, IndexOf(l.statements, StatementKey, id).value)
      && r.ledger.mainCategories == l.mainCategories && r.ledger.categories == l.categories
  {
    match IndexOf(l.statements, StatementKey, id)
    case None => Step(l, Some(MissingRow))
    case Some(k) =>
      var s := l.statements[k];
      Step(Unpost(l, k, -AssetEffect(s.amount, s.discount), s.saving), None)
  }

  /** Two moves of the same target that cancel leave the assets as they were. */
  lemma AssetMovesUndo(a: seq<Asset>, b: seq<Asset>, c: seq<Asset>, target: Option<Id>, delta: int)
    requires AssetsMoved(a, b, target, delta) && AssetsMoved(b, c, target, -delta)
    ensures c == a
  {
    forall k | 0 <= k < |a| ensures c[k] == a[k] {
      assert b[k] == MoveAsset(a[k], target, delta);
    }
  }

  lemma LoanMovesUndo(a: seq<Loan>, b: seq<Loan>, c: seq<Loan>, target: Option<Id>, delta: int)
    requires LoansMoved(a, b, target, delta) && LoansMoved(b, c, target, -delta)
    ensures c == a
  {
    forall k | 0 <= k < |a| ensures c[k] == a[k] {
      assert b[k] == MoveLoan(a[k], target, delta);
    }
  }

  /** What the corrected create and an immediate delete of its row do to
      the tables, gathered once. */
  lemma CreateThenDeleteMoves(l: Ledger, id: Id, input: StatementInput, now: DateTime) returns (stored: int, c: Step, d: Step)
    requires Wellformed(l)
    requires !HasKey(l.statements, StatementKey, id)
    requires !CreateRejected(l, input)
    ensures c == CreateStatement(l, id, input, now)
    ensures d == DeleteStatement(c.ledger, id)
    ensures stored == Normalise(CategoryTypeOf(l, input.categoryId).value, input.amount)
    ensures c.fault != Some(MissingRow)
    ensures d.fault.None?
    ensures MovedThenMovedBack(l, c.ledger, d.ledger, input.assetId, AssetEffect(stored, input.discount), input.loanId, -input.saving)
    ensures d.ledger.statements == l.statements
  {
    c := CreateStatement(l, id, input, now);
    stored := Normalise(CategoryTypeOf(l, input.categoryId).value, input.amount);
    var s := NewStatement(id, input, stored);
    assert c.ledger.statements == l.statements + [s];
    var k := |l.statements|;
    assert IndexOf(c.ledger.statements, StatementKey, id) == Some(k) by {
      IndexOfUnique(c.ledger.statements, StatementKey, id, k);
    }
    assert RemoveAt(l.statements + [s], k) == l.statements;
    d := DeleteStatement(c.ledger, id);
  }

  /** Deleting a statement right after creating it gives back the assets,
      loans and statements the ledger had before, whatever the amounts and
      the category type. */
  lemma CreateThenDeleteRestores(l: Ledger, id: Id, input: StatementInput, now: DateTime)
    requires Wellformed(l)
    requires !HasKey(l.statements, StatementKey, id)
    requires !CreateRejected(l, input)
    ensures var c := CreateStatement(l, id, input, now);
      var d := DeleteStatement(c.ledger, id);
      && c.fault != Some(MissingRow)
      && d.fault.None?
      && d.ledger.assets == l.assets && d.ledger.loans == l.loans && d.ledger.statements == l.statements
  {
    var stored, c, d := CreateThenDeleteMoves(l, id, input, now);
    MovedBackRestores(l, c.ledger, d.ledger, input.assetId, AssetEffect(stored, input.discount), input.loanId, -input.saving);
  }

  /** `mid` moved one asset and one loan of `l` (or none), and `last` moved
      them back by the opposite amounts. */
  predicate MovedThenMovedBack(l: Ledger, mid: Ledger, last: Ledger,
                               assetTarget: Option<Id>, assetDelta: int, loanTarget: Option<Id>, loanDelta: int)
  {
    && AssetsMoved(l.assets, mid.assets, assetTarget, assetDelta)
    && LoansMoved(l.loans, mid.loans, loanTarget, loanDelta)
    && AssetsMoved(mid.assets, last.assets, assetTarget, -assetDelta)
    && LoansMoved(mid.loans, last.loans, loanTarget, -loanDelta)
  }

  /** Moving balances and then moving them back restores them. */
  lemma MovedBackRestores(l: Ledger, mid: Ledger, last: Ledger,
                          assetTarget: Option<Id>, assetDelta: int, loanTarget: Option<Id>, loanDelta: int)
    requires MovedThenMovedBack(l, mid, last, assetTarget, assetDelta, loanTarget, loanDelta)
    ensures last.assets == l.assets && last.loans == l.loans
  {
    AssetMovesUndo(l.assets, mid.assets, last.assets, assetTarget, assetDelta);
    LoanMovesUndo(l.loans, mid.loans, last.loans, loanTarget, loanDelta);
  }

  // ---------------------------------------------------------------------
  // Concrete ledgers that exhibit the two discrepancies

  const Noon: DateTime := Stamp(CivilDate(2024, 3, 6), 43200)

  /** One expense main category (type 2) with one category, one asset and
      one loan, no statements yet. */
  function ExpenseLedger(assetAmount: int, loanAmount: int): (l: Ledger)
    ensures Wellformed(l)
    ensures CategoryTypeOf(l, 1) == Some(2)
  {
    Ledger(
      [MainCategory(1, "living", Some(100000), 2, None)],
      [Category(1, "test", Some(1))],
      [Asset(1, "account", 1, assetAmount, None)],
      [Loan(1, "loan", 0, Some(0), loanAmount, None)],
      [], [])
  }

  function ExpenseInput(amount: int, saving: int, assetId: Option<Id>, loanId: Option<Id>): StatementInput {
    StatementInput("spend", 1, amount, Noon, 0, saving, None, None, assetId, loanId, false)
  }

  /** An expense of 10000 against an asset of 100000: the code as written
      raises the asset to 110000; the stored amount is -10000 and the
      corrected create lowers the asset to 90000. */
  lemma ExpenseRaisesAssetAsWritten()
    ensures var l := ExpenseLedger(100000, 0);
      var input := ExpenseInput(10000, 0, Some(1), None);
      && Balance.CreateStatement(l, 7, input, Noon).ledger.assets[0].amount == 110000
      && Balance.CreateStatement(l, 7, input, Noon).ledger.statements[0].amount == -10000
      && CreateStatement(l, 7, input, Noon).ledger.assets[0].amount == 90000
  {
    var l := ExpenseLedger(100000, 0);
    var input := ExpenseInput(10000, 0, Some(1), None);
    var w := Balance.CreateStatement(l, 7, input, Noon);
    var c := CreateStatement(l, 7, input, Noon);
    assert !CreateRejected(l, input) by {
      assert AssetKey(l.assets[0]) == 1;
    }
    assert w.ledger.assets[0] == MoveAsset(l.assets[0], Some(1), 10000);
    assert w.ledger.statements[0] == NewStatement(7, input, -10000);
    assert c.ledger.assets[0] == MoveAsset(l.assets[0], Some(1), -10000);
  }

  /** The next expense of 10000, with a discount of 1000, against the asset
      the corrected rules left at 90000: as written it rises to 100000, as
      the discount plays no part; corrected it drops by the 9000 paid, to
      81000. */
  lemma DiscountedExpenseAsWritten()
    ensures var l := ExpenseLedger(90000, 0);
      var input := ExpenseInput(10000, 0, Some(1), None).(discount := 1000);
      && Balance.CreateStatement(l, 7, input, Noon).ledger.assets[0].amount == 100000
      && CreateStatement(l, 7, input, Noon).ledger.assets[0].amount == 81000
  {
    var l := ExpenseLedger(90000, 0);
    var input := ExpenseInput(10000, 0, Some(1), None).(discount := 1000);
    var w := Balance.CreateStatement(l, 7, input, Noon);
    var c := CreateStatement(l, 7, input, Noon);
    assert !CreateRejected(l, input) by {
      assert AssetKey(l.assets[0]) == 1;
    }
    assert w.ledger.assets[0] == MoveAsset(l.assets[0], Some(1), 10000);
    assert c.ledger.assets[0] == MoveAsset(l.assets[0], Some(1), -9000);
  }

  /** A payment of 500000 of which 300000 repays a loan of 100000: the
      create leaves the loan at -200000, and the delete as written adds
      back the 500000 of the stored amount, ending at 300000 instead of the
      100000 the loan started from; the corrected delete returns it to
      100000. */
  lemma DeleteOverRefundsLoanAsWritten()
    ensures var l := ExpenseLedger(0, 100000);
      var input := ExpenseInput(500000, 300000, None, Some(1));
      var c := Balance.CreateStatement(l, 7, input, Noon);
      && c.ledger.loans[0].amount == -200000
      && Balance.DeleteStatement(c.ledger, 7).ledger.loans[0].amount == 300000
      && DeleteStatement(CreateStatement(l, 7, input, Noon).ledger, 7).ledger.loans[0].amount == 100000
  {
    var l := ExpenseLedger(0, 100000);
    var input := ExpenseInput(500000, 300000, None, Some(1));
    assert !CreateRejected(l, input) by {
      assert LoanKey(l.loans[0]) == 1;
    }
    var s := NewStatement(7, input, -500000);
    var c := Balance.CreateStatement(l, 7, input, Noon);
    assert c.ledger.statements == [s];
    assert c.ledger.loans[0] == MoveLoan(l.loans[0], Some(1), -300000);
    assert IndexOf(c.ledger.statements, StatementKey, 7) == Some(0);
    var d := Balance.DeleteStatement(c.ledger, 7);
    assert d.ledger.loans[0] == MoveLoan(c.ledger.loans[0], Some(1), 500000);
    CreateThenDeleteRestores(l, 7, input, Noon);
  }

  // ---------------------------------------------------------------------
  // Create and update against the request schema as declared

  /** `create_statement` as written against `StatementIn`, which does not
      declare `is_fixed`: reading it while building the row fails before
      anything is looked up or added, so every request fails and nothing is
      written. `Balance.CreateStatement` is this operation with the field
      declared. */
  function CreateStatementUndeclared(l: Ledger, id: Id, input: StatementInput, now: DateTime): (r: Step)
    ensures r.ledger == l
    ensures r.fault == Some(UndeclaredField)
  {
    Step(l, Some(UndeclaredField))
  }

  /** `update_statement` as written against the same schema: a missing id
      fails first, on the first attribute written to the missing row;
      otherwise the fields are set in the session, and reading `is_fixed`
      fails before the commit, so nothing is written. */
  function UpdateStatementUndeclared(l: Ledger, id: Id, input: StatementInput): (r: Step)
    ensures r.ledger == l
    ensures !HasKey(l.statements, StatementKey, id) <==> r.fault == Some(MissingRow)
    ensures HasKey(l.statements, StatementKey, id) <==> r.fault == Some(UndeclaredField)
  {
    match IndexOf(l.statements, StatementKey, id)
    case None => Step(l, Some(MissingRow))
    case Some(_) => Step(l, Some(UndeclaredField))
  }

  /** The first expense request of the ledger's tests: as written both the
      create and a later rename of the created row fail with nothing
      written; with `is_fixed` declared the create appends the row and the
      rename rewrites it. */
  lemma UndeclaredFieldBlocksWrites()
    ensures var l := ExpenseLedger(100000, 0);
      var input := ExpenseInput(10000, 0, None, None);
      var created := Balance.CreateStatement(l, 7, input, Noon);
      var renamed := input.(name := "renamed");
      && CreateStatementUndeclared(l, 7, input, Noon).fault == Some(UndeclaredField)
      && CreateStatementUndeclared(l, 7, input, Noon).ledger.statements == []
      && created.fault.None? && created.ledger.statements == [NewStatement(7, input, -10000)]
      && UpdateStatementUndeclared(created.ledger, 7, renamed).fault == Some(UndeclaredField)
      && UpdateStatementUndeclared(created.ledger, 7, renamed).ledger.statements[0].name == "spend"
      && Balance.UpdateStatement(created.ledger, 7, renamed, 2).fault.None?
      && Balance.UpdateStatement(created.ledger, 7, renamed, 2).ledger.statements[0].name == "renamed"
  {
    var l := ExpenseLedger(100000, 0);
    var input := ExpenseInput(10000, 0, None, None);
    assert !CreateRejected(l, input);
    var created := Balance.CreateStatement(l, 7, input, Noon);
    assert created.ledger.statements == [NewStatement(7, input, -10000)];
    assert HasKey(created.ledger.statements, StatementKey, 7) by {
      assert StatementKey(created.ledger.statements[0]) == 7;
    }
  }
}

=== FILE: grouping.dfy ===
/** SQL `GROUP BY key` with two `SUM` columns, and the lookup the report
    code performs on its result: scan the groups and take the first whose
    key matches. Groups come out in the order their keys first appear
    when the rows are read from the back; the reports only ever look a
    group up by key, so the order plays no part in what they return. */
module Grouping {
  import opened Models

  /** One input row (or one group): its grouping key and the two summed
      columns. */
  datatype Entry = Entry(key: int, first: int, second: int)

  predicate HasGroupKey(es: seq<Entry>, k: int) {
    exists i :: 0 <= i < |es| && es[i].key == k
  }

  predicate DistinctKeys(gs: seq<Entry>) {
    forall i, j :: 0 <= i < j < |gs| ==> gs[i].key != gs[j].key
  }

  /** Sum of the first column over the rows with key `k`. */
  function SumFirst(es: seq<Entry>, k: int): int {
    if |es| == 0 then 0 else (if es[0].key == k then es[0].first else 0) + SumFirst(es[1..], k)
  }

  function SumSecond(es: seq<Entry>, k: int): int {
    if |es| == 0 then 0 else (if es[0].key == k then es[0].second else 0) + SumSecond(es[1..], k)
  }

  /** The first group with key `k`, or None when there is none. */
  function Lookup(gs: seq<Entry>, k: int): (r: Option<Entry>)
    ensures r.Some? <==> HasGroupKey(gs, k)
    ensures r.Some? ==> r.value.key == k
  {
    if |gs| == 0 then None
    else if gs[0].key == k then Some(gs[0])
    else
      var r := Lookup(gs[1..], k);
      HasKeyCons(gs, k);
      r
  }

  /** When a group has key `k`, the one `Lookup` returns is the first such
      group of `gs`, unchanged. */
  lemma {:induction false} LookupFindsFirst(gs: seq<Entry>, k: int) returns (i: int)
    requires HasGroupKey(gs, k)
    ensures 0 <= i < |gs| && Lookup(gs, k) == Some(gs[i])
    ensures forall j :: 0 <= j < i ==> gs[j].key != k
  {
    if gs[0].key == k {
      i := 0;
    } else {
      HasKeyCons(gs, k);
      var t := LookupFindsFirst(gs[1..], k);
      i := t + 1;
      forall j | 0 <= j < i ensures gs[j].key != k {
        if j > 0 {
          assert gs[j] == gs[1..][j - 1];
        }
      }
    }
  }

  /** Fold one row into the groups: add it to the group of its key, or open
      a new group at the end. */
  function AddTo(gs: seq<Entry>, e: Entry): (r: seq<Entry>)
    ensures |r| == |gs| || |r| == |gs| + 1
  {
    if |gs| == 0 then [e]
    else if gs[0].key == e.key then [Entry(e.key, gs[0].first + e.first, gs[0].second + e.second)] + gs[1..]
    else [gs[0]] + AddTo(gs[1..], e)
  }

  function GroupBy(es: seq<Entry>): (gs: seq<Entry>)
    ensures |gs| <= |es|
  {
    if |es| == 0 then [] else AddTo(GroupBy(es[1..]), es[0])
  }

  /** A key occurs in a non-empty sequence when it heads it or occurs in
      the rest. */
  lemma HasKeyCons(es: seq<Entry>, k: int)
    requires |es| > 0
    ensures HasGroupKey(es, k) <==> es[0].key == k || HasGroupKey(es[1..], k)
  {
    if HasGroupKey(es, k) && es[0].key != k {
      var i :| 0 <= i < |es| && es[i].key == k;
      assert es[1..][i - 1].key == k;
    }
    if HasGroupKey(es[1..], k) {
      var i :| 0 <= i < |es[1..]| && es[1..][i].key == k;
      assert es[i + 1].key == k;
    }
  }

  /** Keys are distinct when the head's key is not in the rest and the
      rest's keys are distinct. */
  lemma DistinctCons(gs: seq<Entry>)
    requires |gs| > 0
    ensures DistinctKeys(gs) <==> !HasGroupKey(gs[1..], gs[0].key) && DistinctKeys(gs[1..])
  {
    var t := gs[1..];
    if DistinctKeys(gs) {
      forall i | 0 <= i < |t| ensures t[i].key != gs[0].key {
        assert t[i] == gs[i + 1];
      }
      forall i, j | 0 <= i < j < |t| ensures t[i].key != t[j].key {
        assert t[i] == gs[i + 1] && t[j] == gs[j + 1];
      }
    }
    if !HasGroupKey(t, gs[0].key) && DistinctKeys(t) {
      forall i, j | 0 <= i < j < |gs| ensures gs[i].key != gs[j].key {
        assert gs[j] == t[j - 1];
        if i > 0 {
          assert gs[i] == t[i - 1];
        }
      }
    }
  }

  /** Folding a row adds exactly its key to the keys of the groups. */
  lemma {:induction false} AddToKeys(gs: seq<Entry>, e: Entry, k: int)
    ensures HasGroupKey(AddTo(gs, e), k) <==> HasGroupKey(gs, k) || k == e.key
  {
    var r := AddTo(gs, e);
    if |gs| == 0 {
      assert r[0].key == e.key;
    } else {
      HasKeyCons(gs, k);
      HasKeyCons(r, k);
      if gs[0].key == e.key {
        assert r[1..] == gs[1..];
      } else {
        assert r[1..] == AddTo(gs[1..], e);
        AddToKeys(gs[1..], e, k);
      }
    }
  }

  lemma {:induction false} AddToDistinct(gs: seq<Entry>, e: Entry)
    requires DistinctKeys(gs)
    ensures DistinctKeys(AddTo(gs, e))
  {
    var r := AddTo(gs, e);
    if |gs| > 0 {
      DistinctCons(gs);
      DistinctCons(r);
      if gs[0].key == e.key {
        assert r[1..] == gs[1..];
      } else {
        assert r[1..] == AddTo(gs[1..], e);
        AddToDistinct(gs[1..], e);
        AddToKeys(gs[1..], e, gs[0].key);
      }
    }
  }

  /** What folding one row does to the group lookup: the row's key gains
      its values, every other key is untouched. */
  lemma {:induction false} AddToLookup(gs: seq<Entry>, e: Entry, k: int)
    ensures k != e.key ==> Lookup(AddTo(gs, e), k) == Lookup(gs, k)
    ensures k == e.key ==> Lookup(AddTo(gs, e), k) == Some(
      match Lookup(gs, k)
      case None => e
      case Some(g) => Entry(k, g.first + e.first, g.second + e.second))
  {
    var r := AddTo(gs, e);
    if |gs| > 0 && gs[0].key != e.key {
      assert r[1..] == AddTo(gs[1..], e);
      AddToLookup(gs[1..], e, k);
    }
  }

  /** Grouping computes, for every key, the sums of its rows: a key that
      occurs finds its group with both column sums, a key that does not
      finds nothing. */
  lemma {:induction false} GroupByLookup(es: seq<Entry>, k: int)
    ensures DistinctKeys(GroupBy(es))
    ensures Lookup(GroupBy(es), k) == if HasGroupKey(es, k) then Some(Entry(k, SumFirst(es, k), SumSecond(es, k))) else None
  {
    if |es| > 0 {
      var rest := GroupBy(es[1..]);
      assert GroupBy(es) == AddTo(rest, es[0]);
      GroupByLookup(es[1..], k);
      AddToDistinct(rest, es[0]);
      AddToLookup(rest, es[0], k);
      HasKeyCons(es, k);
      assert SumFirst(es, k) == (if es[0].key == k then es[0].first else 0) + SumFirst(es[1..], k);
      assert SumSecond(es, k) == (if es[0].key == k then es[0].second else 0) + SumSecond(es[1..], k);
      if !HasGroupKey(es[1..], k) {
        NoRowsSumZero(es[1..], k);
      }
    }
  }

  /** A key with no rows sums to zero in both columns. */
  lemma {:induction false} NoRowsSumZero(es: seq<Entry>, k: int)
    requires !HasGroupKey(es, k)
    ensures SumFirst(es, k) == 0 && SumSecond(es, k) == 0
  {
    if |es| > 0 {
      HasKeyCons(es, k);
      NoRowsSumZero(es[1..], k);
    }
  }

  /** The value a report reads for key `k`: the group's sums when the key
      has rows, and 0 for both when it has none, which is the same as
      summing its rows directly. */
  lemma GroupedSums(es: seq<Entry>, k: int)
    ensures var g := Lookup(GroupBy(es), k);
      && (g.Some? ==> g.value.first == SumFirst(es, k) && g.value.second == SumSecond(es, k))
      && (g.None? ==> SumFirst(es, k) == 0 && SumSecond(es, k) == 0)
  {
    GroupByLookup(es, k);
    if !HasGroupKey(es, k) {
      NoRowsSumZero(es, k);
    }
  }
}

=== FILE: history.dfy ===
/** Reading the net-worth history (app/routes.py:198-298). The history
    query orders the rows by creation time and keeps those in a window; the
    weekly and monthly views then keep one value per calendar day, the
    last one written that day, and the "previous week" view adds up the
    changes between consecutive rows. */
module History {
  import opened Calendar
  import opened Models
  import opened Balance

  function At(h: HistoryRow): int { Instant(h.createdAt) }

  predicate Chronological(rows: seq<HistoryRow>) {
    forall i, j :: 0 <= i < j < |rows| ==> At(rows[i]) <= At(rows[j])
  }

  /** Insert `x` after every row not later than it. */
  function Insert(x: HistoryRow, rows: seq<HistoryRow>): (r: seq<HistoryRow>)
    requires Chronological(rows)
    ensures Chronological(r)
    ensures multiset(r) == multiset(rows) + multiset{x}
    ensures |r| == |rows| + 1
  {
    if |rows| == 0 then [x]
    else if At(x) < At(rows[0]) then
      ConsInOrder(x, rows);
      [x] + rows
    else
      ChronologicalTail(rows);
      var tail := Insert(x, rows[1..]);
      assert rows == [rows[0]] + rows[1..];
      HeadBoundsInsert(x, rows, tail);
      ConsInOrder(rows[0], tail);
      [rows[0]] + tail
  }

  /** A row no later than every row of a chronological sequence can go in
      front of it. */
  lemma ConsInOrder(h: HistoryRow, rows: seq<HistoryRow>)
    requires Chronological(rows)
    requires forall k :: 0 <= k < |rows| ==> At(h) <= At(rows[k])
    ensures Chronological([h] + rows)
  {
    var r := [h] + rows;
    forall i, j | 0 <= i < j < |r| ensures At(r[i]) <= At(r[j]) {
      assert r[j] == rows[j - 1];
      if i > 0 {
        assert r[i] == rows[i - 1];
      }
    }
  }

  /** The head of chronological rows is no later than anything made of the
      rest and a row not earlier than it. */
  lemma HeadBoundsInsert(x: HistoryRow, rows: seq<HistoryRow>, tail: seq<HistoryRow>)
    requires |rows| > 0 && Chronological(rows) && At(rows[0]) <= At(x)
    requires multiset(tail) == multiset(rows[1..]) + multiset{x}
    ensures forall k :: 0 <= k < |tail| ==> At(rows[0]) <= At(tail[k])
  {
    forall k | 0 <= k < |tail| ensures At(rows[0]) <= At(tail[k]) {
      assert tail[k] in multiset(tail);
      if tail[k] != x {
        assert tail[k] in multiset(rows[1..]);
        var j :| 0 <= j < |rows[1..]| && rows[1..][j] == tail[k];
        assert rows[j + 1] == tail[k];
      }
    }
  }

  /** ORDER BY created_at: a stable insertion sort of the rows by creation
      time. */
  function SortByTime(rows: seq<HistoryRow>): (r: seq<HistoryRow>)
    ensures Chronological(r)
    ensures multiset(r) == multiset(rows)
  {
    if |rows| == 0 then []
    else
      assert rows == rows[..|rows| - 1] + [rows[|rows| - 1]];
      Insert(rows[|rows| - 1], SortByTime(rows[..|rows| - 1]))
  }

  /** The rows inside a window, in order: the history query's `WHERE`. */
  function InRange(rows: seq<HistoryRow>, w: Window): (r: seq<HistoryRow>)
    ensures forall h :: h in r <==> h in rows && InWindow(w, h.createdAt)
    ensures forall h :: multiset(r)[h] == if InWindow(w, h.createdAt) then multiset(rows)[h] else 0
    ensures Chronological(rows) ==> Chronological(r)
  {
    ChronologicalSelect(rows, (h: HistoryRow) => InWindow(w, h.createdAt));
    Select(rows, (h: HistoryRow) => InWindow(w, h.createdAt))
  }

  lemma ChronologicalTail(rows: seq<HistoryRow>)
    requires |rows| > 0
    ensures Chronological(rows) ==> Chronological(rows[1..])
  {
    if Chronological(rows) {
      forall i, j | 0 <= i < j < |rows[1..]| ensures At(rows[1..][i]) <= At(rows[1..][j]) {
        assert rows[1..][i] == rows[i + 1] && rows[1..][j] == rows[j + 1];
      }
    }
  }

  /** Keeping some of the rows of a chronological sequence keeps it
      chronological: the kept rows sit at increasing table indices. */
  lemma ChronologicalSelect(rows: seq<HistoryRow>, p: HistoryRow -> bool)
    ensures Chronological(rows) ==> Chronological(Select(rows, p))
  {
    var idx := SelectInOrder(rows, p);
    var r := Select(rows, p);
    if Chronological(rows) {
      forall i, j | 0 <= i < j < |r| ensures At(r[i]) <= At(r[j]) {
        assert r[i] == rows[idx[i]] && r[j] == rows[idx[j]] && idx[i] < idx[j];
      }
    }
  }

  /** The window of the weekly view and of the weekly delta: from the
      midnight of the Sunday before `d` (a week earlier when `d` is itself
      a Sunday) up to and including the midnight that ends `d`. */
  function WeekHistoryWindow(d: Date): Window {
    Window(Midnight(SundayBefore(d)), Midnight(Ordinal(d) + 1), true)
  }

  /** The window of the monthly view: from the midnight of the first day
      up to and including the midnight that starts the last day. */
  function MonthHistoryWindow(d: Date): Window {
    Window(Midnight(Ordinal(FirstOfMonth(d))), Midnight(Ordinal(LastOfMonth(d))), true)
  }

  /** The monthly view sees only the first instant of the month's last
      day: a row written later that day is left out. */
  lemma MonthViewMissesLastDay(d: Date, t: DateTime)
    ensures InWindow(MonthHistoryWindow(d), t) <==>
      || Ordinal(FirstOfMonth(d)) <= Ordinal(t.date) < Ordinal(LastOfMonth(d))
      || (Ordinal(t.date) == Ordinal(LastOfMonth(d)) && t.secondOfDay == 0)
  {
    CompareWithMidnight(t, Ordinal(FirstOfMonth(d)));
    CompareWithMidnight(t, Ordinal(LastOfMonth(d)));
  }

  /** The weekly view covers the whole days from the week's start through
      `d`, plus the first instant of the day after. */
  lemma WeekViewDays(d: Date, t: DateTime)
    ensures InWindow(WeekHistoryWindow(d), t) <==>
      || SundayBefore(d) <= Ordinal(t.date) <= Ordinal(d)
      || (Ordinal(t.date) == Ordinal(d) + 1 && t.secondOfDay == 0)
  {
    CompareWithMidnight(t, SundayBefore(d));
    CompareWithMidnight(t, Ordinal(d) + 1);
  }

  /** One entry of a view: a calendar day and the net worth shown for it. */
  datatype DayValue = DayValue(day: Date, value: int)

  predicate DistinctDays(vs: seq<DayValue>) {
    forall i, j :: 0 <= i < j < |vs| ==> vs[i].day != vs[j].day
  }

  /** The value a view holds for `day`, if any. */
  function ValueOn(vs: seq<DayValue>, day: Date): Option<int> {
    if |vs| == 0 then None
    else if vs[|vs| - 1].day == day then Some(vs[|vs| - 1].value)
    else ValueOn(vs[..|vs| - 1], day)
  }

  /** Reference: the amount of the last row written on `day`. */
  function LastOn(rows: seq<HistoryRow>, day: Date): Option<int> {
    if |rows| == 0 then None
    else if rows[|rows| - 1].createdAt.date == day then Some(rows[|rows| - 1].amount)
    else LastOn(rows[..|rows| - 1], day)
  }

  /** Dictionary assignment: overwrite the day's value where it already
      is, or add the day at the end. */
  function Put(vs: seq<DayValue>, day: Date, value: int): (r: seq<DayValue>)
    requires DistinctDays(vs)
    ensures DistinctDays(r)
    ensures ValueOn(r, day) == Some(value)
    ensures forall e :: e != day ==> ValueOn(r, e) == ValueOn(vs, e)
    ensures ValueOn(vs, day).None? ==> r == vs + [DayValue(day, value)]
    ensures ValueOn(vs, day).Some? ==> |r| == |vs| && forall i :: 0 <= i < |vs| ==> r[i].day == vs[i].day
  {
    if ValueOn(vs, day).None? then
      var r := vs + [DayValue(day, value)];
      assert r[..|vs|] == vs;
      assert DistinctDays(r) by {
        forall i | 0 <= i < |vs| ensures vs[i].day != day {
          if vs[i].day == day {
            Listed(vs, i);
          }
        }
      }
      r
    else Overwrite(vs, day, value)
  }

  function Overwrite(vs: seq<DayValue>, day: Date, value: int): (r: seq<DayValue>)
    requires DistinctDays(vs)
    requires ValueOn(vs, day).Some?
    ensures |r| == |vs| && forall i :: 0 <= i < |vs| ==> r[i].day == vs[i].day
    ensures DistinctDays(r)
    ensures ValueOn(r, day) == Some(value)
    ensures forall e :: e != day ==> ValueOn(r, e) == ValueOn(vs, e)
  {
    var p := vs[..|vs| - 1];
    assert DistinctDays(p);
    if vs[|vs| - 1].day == day then
      var r := p + [DayValue(day, value)];
      assert r[..|r| - 1] == p;
      r
    else
      var front := Overwrite(p, day, value);
      var r := front + [vs[|vs| - 1]];
      assert r[..|r| - 1] == front;
      r
  }

  /** A day listed at position `i` has a value. */
  lemma {:induction false} Listed(vs: seq<DayValue>, i: int)
    requires 0 <= i < |vs|
    ensures ValueOn(vs, vs[i].day).Some?
  {
    if i < |vs| - 1 && vs[|vs| - 1].day != vs[i].day {
      Listed(vs[..|vs| - 1], i);
    }
  }

  /** Keep the last value per day, days in order of first appearance. */
  function Collapse(rows: seq<HistoryRow>): (r: seq<DayValue>)
    ensures DistinctDays(r)
  {
    if |rows| == 0 then []
    else Put(Collapse(rows[..|rows| - 1]), rows[|rows| - 1].createdAt.date, rows[|rows| - 1].amount)
  }

  /** Every day's value in the view is the last amount written that day,
      and days with no row have no value. */
  lemma {:induction false} CollapseKeepsLast(rows: seq<HistoryRow>, day: Date)
    ensures ValueOn(Collapse(rows), day) == LastOn(rows, day)
  {
    if |rows| > 0 {
      CollapseKeepsLast(rows[..|rows| - 1], day);
    }
  }

  predicate DaysIncreasing(vs: seq<DayValue>) {
    forall i, j :: 0 <= i < j < |vs| ==> Ordinal(vs[i].day) < Ordinal(vs[j].day)
  }

  /** A day that has a value is listed somewhere in the view. */
  lemma {:induction false} ValueListed(vs: seq<DayValue>, day: Date) returns (k: int)
    requires ValueOn(vs, day).Some?
    ensures 0 <= k < |vs| && vs[k].day == day
  {
    if vs[|vs| - 1].day == day {
      k := |vs| - 1;
    } else {
      k := ValueListed(vs[..|vs| - 1], day);
    }
  }

  /** Writing a day no earlier than the view's last day keeps the days in
      calendar order, and the written day becomes the last. */
  lemma PutInOrder(vs: seq<DayValue>, day: Date, value: int)
    requires DistinctDays(vs) && DaysIncreasing(vs)
    requires |vs| > 0 ==> Ordinal(vs[|vs| - 1].day) <= Ordinal(day)
    ensures DaysIncreasing(Put(vs, day, value))
    ensures |Put(vs, day, value)| > 0 && Put(vs, day, value)[|Put(vs, day, value)| - 1].day == day
  {
    var r := Put(vs, day, value);
    if ValueOn(vs, day).None? {
      if |vs| > 0 {
        var last := vs[|vs| - 1].day;
        if Ordinal(last) == Ordinal(day) {
          OrdinalInjective(last, day);
          Listed(vs, |vs| - 1);
        }
      }
      assert r == vs + [DayValue(day, value)];
    } else {
      var k := ValueListed(vs, day);
      OrdinalInjective(vs[|vs| - 1].day, day);
    }
  }

  /** On rows in creation order, the days of the view come out in
      calendar order, and the last row's day is the view's last day. */
  lemma {:induction false} CollapseInDayOrder(rows: seq<HistoryRow>)
    requires Chronological(rows)
    ensures DaysIncreasing(Collapse(rows))
    ensures |rows| > 0 ==> |Collapse(rows)| > 0 && Collapse(rows)[|Collapse(rows)| - 1].day == rows[|rows| - 1].createdAt.date
  {
    if |rows| > 0 {
      var p := rows[..|rows| - 1];
      var x := rows[|rows| - 1];
      ChronologicalInit(rows);
      CollapseInDayOrder(p);
      if |p| > 0 {
        LaterRowLaterDay(p[|p| - 1], x);
      }
      PutInOrder(Collapse(p), x.createdAt.date, x.amount);
    }
  }

  /** Dropping the last row keeps the rows in creation order, and the
      dropped row is no earlier than the new last one. */
  lemma ChronologicalInit(rows: seq<HistoryRow>)
    requires |rows| > 0 && Chronological(rows)
    ensures Chronological(rows[..|rows| - 1])
    ensures |rows| > 1 ==> At(rows[|rows| - 2]) <= At(rows[|rows| - 1])
  {
    var p := rows[..|rows| - 1];
    forall i, j | 0 <= i < j < |p| ensures At(p[i]) <= At(p[j]) {
      assert p[i] == rows[i] && p[j] == rows[j];
    }
  }

  /** A row written no earlier than another falls on the same day or a
      later one. */
  lemma LaterRowLaterDay(a: HistoryRow, b: HistoryRow)
    ensures At(a) <= At(b) ==> Ordinal(a.createdAt.date) <= Ordinal(b.createdAt.date)
  {
    CompareWithMidnight(b.createdAt, Ordinal(a.createdAt.date));
    CompareWithMidnight(a.createdAt, Ordinal(b.createdAt.date));
  }

  /** `get_assets_history`: mode 1 is the week view, mode 2 the month view,
      any other mode returns nothing. */
  function AssetHistory(l: Ledger, mode: int, d: Date): (r: Option<seq<DayValue>>)
    ensures r.Some? <==> mode == 1 || mode == 2
    ensures r.Some? ==>
      var w := if mode == 1 then WeekHistoryWindow(d) else MonthHistoryWindow(d);
      && DistinctDays(r.value)
      && (forall day :: ValueOn(r.value, day) == LastOn(InRange(SortByTime(l.history), w), day))
      && DaysIncreasing(r.value)
  {
    if mode != 1 && mode != 2 then None
    else
      var w := if mode == 1 then WeekHistoryWindow(d) else MonthHistoryWindow(d);
      var rows := InRange(SortByTime(l.history), w);
      forall day ensures ValueOn(Collapse(rows), day) == LastOn(rows, day) {
        CollapseKeepsLast(rows, day);
      }
      CollapseInDayOrder(rows);
      Some(Collapse(rows))
  }

  datatype WeekChange = WeekChange(totalAsset: int, diffAsset: int)

  /** This week's history rows, in creation order. */
  function WeekRows(l: Ledger, today: Date): seq<HistoryRow> {
    InRange(SortByTime(l.history), WeekHistoryWindow(today))
  }

  /** The loop of `get_assets_prev`: the sum of the changes between
      consecutive rows telescopes to the last amount minus the first. */
  method SumOfChanges(rows: seq<HistoryRow>) returns (diffSum: int)
    ensures diffSum == if |rows| == 0 then 0 else rows[|rows| - 1].amount - rows[0].amount
  {
    diffSum := 0;
    if |rows| > 0 {
      var previous := rows[0].amount;
      var i := 1;
      while i < |rows|
        invariant 1 <= i <= |rows|
        invariant previous == rows[i - 1].amount
        invariant diffSum == rows[i - 1].amount - rows[0].amount
      {
        var diff := rows[i].amount - previous;
        diffSum := diffSum + diff;
        previous := rows[i].amount;
        i := i + 1;
      }
    }
  }

  /** `get_assets_prev`, with today's date as a parameter: the current net
      worth, and the sum of the changes between consecutive rows of this
      week's history, which comes to the last row's amount minus the
      first's. The net worth raises (None) when the asset or loan table is
      empty. */
  method WeekNetWorthChange(l: Ledger, today: Date) returns (r: Option<WeekChange>)
    ensures r.None? <==> NetWorth(l).None?
    ensures r.Some? ==>
      var rows := WeekRows(l, today);
      && r.value.totalAsset == NetWorth(l).value
      && r.value.diffAsset == (if |rows| == 0 then 0 else rows[|rows| - 1].amount - rows[0].amount)
  {
    var total := NetWorth(l);
    if total.None? {
      r := None;
    } else {
      var diffSum := SumOfChanges(WeekRows(l, today));
      r := Some(WeekChange(total.value, diffSum));
    }
  }
}

=== FILE: models.dfy ===
/** The ledger's tables (models.py) as immutable rows, and the whole
    database as one `Ledger` value. Each table is a sequence of rows in the
    order the database lists them; a row's `id` is its primary key. */
module Models {
  import opened Calendar

  datatype Option<T> = None | Some(value: T) {
    function GetOr(default: T): T {
      if Some? then value else default
    }
  }

  type Id = int

  /** Category-type codes. `TYPE_INCOME` comes from app/consts.py, which
      is not part of this model; it is taken to be 1, the code the monthly
      totals read as income (app/routes.py:883). The reports use 2 for
      expenses (app/routes.py:724, 885) and 3 for savings
      (app/routes.py:888). */
  const TYPE_INCOME: int := 1
  const TYPE_EXPENSE: int := 2
  const TYPE_SAVING: int := 3

  datatype MainCategory = MainCategory(
    id: Id,
    name: string,
    weeklyLimit: Option<int>,
    categoryType: int,
    assetId: Option<Id>)

  /** `mainCategoryId` is None once its main category was deleted: the ORM
      nulls the foreign key of the orphaned rows. */
  datatype Category = Category(id: Id, name: string, mainCategoryId: Option<Id>)

  datatype Asset = Asset(
    id: Id,
    name: string,
    assetType: int,
    amount: int,
    description: Option<string>)

  /** `principal`, `interest_rate` and `total_months` are stored but never
      read by any rule of the ledger, so they are not modelled.
      `paymentAmount` is None when an update wrote NULL. */
  datatype Loan = Loan(
    id: Id,
    name: string,
    currentMonth: int,
    paymentAmount: Option<int>,
    amount: int,
    description: Option<string>)

  datatype Statement = Statement(
    id: Id,
    name: string,
    categoryId: Id,
    accountCardId: Option<Id>,
    assetId: Option<Id>,
    loanId: Option<Id>,
    amount: int,
    discount: int,
    saving: int,
    date: DateTime,
    isFixed: bool,
    description: Option<string>)

  /** One net-worth snapshot; `createdAt` is the moment it was written. */
  datatype HistoryRow = HistoryRow(amount: int, createdAt: DateTime)

  datatype Ledger = Ledger(
    mainCategories: seq<MainCategory>,
    categories: seq<Category>,
    assets: seq<Asset>,
    loans: seq<Loan>,
    statements: seq<Statement>,
    history: seq<HistoryRow>)

  // Primary keys, as function values for the generic table helpers.
  function MainCategoryKey(m: MainCategory): Id { m.id }
  function CategoryKey(c: Category): Id { c.id }
  function AssetKey(a: Asset): Id { a.id }
  function LoanKey(l: Loan): Id { l.id }
  function StatementKey(s: Statement): Id { s.id }

  function AssetAmount(a: Asset): int { a.amount }
  function LoanAmount(l: Loan): int { l.amount }

  /** Position of the first row whose key is `id`, as `.first()` finds it. */
  function IndexOf<T>(rows: seq<T>, key: T -> Id, id: Id): (r: Option<nat>)
    ensures r.Some? ==> r.value < |rows| && key(rows[r.value]) == id
    ensures r.Some? ==> forall j :: 0 <= j < r.value ==> key(rows[j]) != id
    ensures r.None? <==> forall j :: 0 <= j < |rows| ==> key(rows[j]) != id
  {
    if |rows| == 0 then None
    else if key(rows[0]) == id then Some(0)
    else match IndexOf(rows[1..], key, id)
      case None => None
      case Some(i) => Some(i + 1)
  }

  predicate HasKey<T>(rows: seq<T>, key: T -> Id, id: Id) {
    exists j :: 0 <= j < |rows| && key(rows[j]) == id
  }

  predicate UniqueKeys<T>(rows: seq<T>, key: T -> Id) {
    forall i, j :: 0 <= i < j < |rows| ==> key(rows[i]) != key(rows[j])
  }

  /** Under unique keys, the row found by `IndexOf` is the only row with
      that key. */
  lemma IndexOfUnique<T>(rows: seq<T>, key: T -> Id, id: Id, j: int)
    requires UniqueKeys(rows, key)
    requires 0 <= j < |rows|
    ensures key(rows[j]) == id <==> IndexOf(rows, key, id) == Some(j)
  {
  }

  /** Sum of `f` over the rows; the empty table sums to 0. */
  function Sum<T>(rows: seq<T>, f: T -> int): int {
    if |rows| == 0 then 0 else f(rows[0]) + Sum(rows[1..], f)
  }

  lemma {:induction false} SumAppend<T>(a: seq<T>, b: seq<T>, f: T -> int)
    ensures Sum(a + b, f) == Sum(a, f) + Sum(b, f)
  {
    if |a| == 0 {
      assert a + b == b;
    } else {
      assert (a + b)[1..] == a[1..] + b;
      SumAppend(a[1..], b, f);
    }
  }

  /** Replacing one row changes the sum by the change in that row's value. */
  lemma {:induction false} SumUpdate<T>(rows: seq<T>, i: int, x: T, f: T -> int)
    requires 0 <= i < |rows|
    ensures Sum(rows[i := x], f) == Sum(rows, f) - f(rows[i]) + f(x)
  {
    if i == 0 {
      assert rows[i := x][1..] == rows[1..];
    } else {
      assert rows[i := x][1..] == rows[1..][i - 1 := x];
      SumUpdate(rows[1..], i - 1, x, f);
    }
  }

  /** Removing one row removes its value from the sum. */
  lemma {:induction false} SumRemove<T>(rows: seq<T>, i: int, f: T -> int)
    requires 0 <= i < |rows|
    ensures Sum(rows[..i] + rows[i + 1..], f) == Sum(rows, f) - f(rows[i])
  {
    var a, b := rows[..i], rows[i + 1..];
    assert rows == a + ([rows[i]] + b);
    SumAppend(a, [rows[i]] + b, f);
    assert ([rows[i]] + b)[1..] == b;
    SumAppend(a, b, f);
  }

  /** A row's value is a summand: appending a row adds its value. */
  lemma {:induction false} SumSnoc<T>(rows: seq<T>, x: T, f: T -> int)
    ensures Sum(rows + [x], f) == Sum(rows, f) + f(x)
  {
    SumAppend(rows, [x], f);
  }

  /** The rows `p` keeps, in table order: a `WHERE` clause. */
  function Select<T(==,!new)>(xs: seq<T>, p: T -> bool): (r: seq<T>)
    ensures |r| <= |xs|
    ensures forall x :: x in r <==> x in xs && p(x)
    ensures forall x :: multiset(r)[x] == if p(x) then multiset(xs)[x] else 0
  {
    if |xs| == 0 then []
    else
      var rest := Select(xs[1..], p);
      assert xs == [xs[0]] + xs[1..];
      if p(xs[0]) then [xs[0]] + rest else rest
  }

  /** `f` of every row, in table order. */
  function Map<T(!new), U(!new)>(xs: seq<T>, f: T -> U): (r: seq<U>)
    ensures |r| == |xs|
    ensures forall i :: 0 <= i < |r| ==> r[i] == f(xs[i])
    ensures forall y :: y in r <==> exists x :: x in xs && y == f(x)
  {
    var r := seq(|xs|, i requires 0 <= i < |xs| => f(xs[i]));
    assert forall y :: y in r <==> exists x :: x in xs && y == f(x) by {
      forall y | y in r ensures exists x :: x in xs && y == f(x) {
        var i :| 0 <= i < |r| && r[i] == y;
        assert xs[i] in xs;
      }
      forall x | x in xs ensures f(x) in r {
        var i :| 0 <= i < |xs| && xs[i] == x;
        assert r[i] == f(x);
      }
    }
    r
  }

  /** Strictly increasing positions below `n`. */
  predicate Ascending(idx: seq<int>, n: int) {
    && (forall i :: 0 <= i < |idx| ==> 0 <= idx[i] < n)
    && (forall i, j :: 0 <= i < j < |idx| ==> idx[i] < idx[j])
  }

  /** `Select` keeps table order: its result is the rows at the ascending
      positions `idx`, and those are all the positions whose row `p`
      keeps. */
  lemma {:induction false} SelectInOrder<T(!new)>(xs: seq<T>, p: T -> bool) returns (idx: seq<int>)
    ensures Ascending(idx, |xs|)
    ensures |idx| == |Select(xs, p)|
    ensures forall i :: 0 <= i < |idx| ==> Select(xs, p)[i] == xs[idx[i]] && p(xs[idx[i]])
    ensures forall j :: 0 <= j < |xs| && p(xs[j]) ==> j in idx
  {
    if |xs| == 0 {
      idx := [];
    } else {
      var tail := xs[1..];
      var rest := SelectInOrder(tail, p);
      ShiftAscending(rest, |tail|);
      ShiftCovers(xs, p, rest);
      idx := if p(xs[0]) then [0] + Shift(rest) else Shift(rest);
      ShiftPicks(xs, p, Select(xs, p), Select(tail, p), rest, idx);
    }
  }

  /** The positions kept in the tail, one further on, are the positions
      kept in the whole past its head. */
  lemma ShiftCovers<T>(xs: seq<T>, p: T -> bool, rest: seq<int>)
    requires |xs| > 0
    requires forall j :: 0 <= j < |xs| - 1 && p(xs[1..][j]) ==> j in rest
    ensures forall j :: 1 <= j < |xs| && p(xs[j]) ==> j in Shift(rest)
  {
    forall j | 1 <= j < |xs| && p(xs[j]) ensures j in Shift(rest) {
      assert xs[1..][j - 1] == xs[j];
      var i :| 0 <= i < |rest| && rest[i] == j - 1;
      assert Shift(rest)[i] == j;
    }
  }

  /** The rows at the shifted positions, behind the head when `p` keeps
      it, are the rows kept from the tail, behind the head when `p` keeps
      it. */
  lemma ShiftPicks<T>(xs: seq<T>, p: T -> bool, r: seq<T>, kept: seq<T>, rest: seq<int>, idx: seq<int>)
    requires |xs| > 0 && |rest| == |kept|
    requires forall i :: 0 <= i < |rest| ==> 0 <= rest[i] < |xs| - 1 && kept[i] == xs[rest[i] + 1] && p(kept[i])
    requires r == if p(xs[0]) then [xs[0]] + kept else kept
    requires idx == if p(xs[0]) then [0] + Shift(rest) else Shift(rest)
    ensures |idx| == |r|
    ensures forall i :: 0 <= i < |idx| ==> r[i] == xs[idx[i]] && p(xs[idx[i]])
  {
    forall i | 0 <= i < |idx| ensures r[i] == xs[idx[i]] && p(xs[idx[i]]) {
      if !p(xs[0]) {
        assert idx[i] == rest[i] + 1;
      } else if i > 0 {
        assert r[i] == kept[i - 1];
        assert idx[i] == rest[i - 1] + 1;
      }
    }
  }

  /** Moving ascending positions one further on, with or without a new
      first position 0, keeps them ascending. */
  lemma ShiftAscending(idx: seq<int>, n: nat)
    requires Ascending(idx, n)
    ensures Ascending(Shift(idx), n + 1)
    ensures Ascending([0] + Shift(idx), n + 1)
  {
  }

  /** Every position one further on. */
  function Shift(idx: seq<int>): (r: seq<int>)
    ensures |r| == |idx|
    ensures forall i :: 0 <= i < |r| ==> r[i] == idx[i] + 1
  {
    seq(|idx|, i requires 0 <= i < |idx| => idx[i] + 1)
  }

  /** Reference sum of `f` over the rows `p` keeps, read straight off the
      table. */
  function SumWhere<T>(xs: seq<T>, p: T -> bool, f: T -> int): int {
    if |xs| == 0 then 0 else (if p(xs[0]) then f(xs[0]) else 0) + SumWhere(xs[1..], p, f)
  }

  /** Summing over the selected rows is summing over the table with the
      filter applied row by row. */
  lemma {:induction false} SumSelect<T(!new)>(xs: seq<T>, p: T -> bool, f: T -> int)
    ensures Sum(Select(xs, p), f) == SumWhere(xs, p, f)
  {
    if |xs| > 0 {
      SumSelect(xs[1..], p, f);
      if p(xs[0]) {
        assert ([xs[0]] + Select(xs[1..], p))[1..] == Select(xs[1..], p);
      }
    }
  }

  /** Database invariants the ledger keeps: primary keys are unique, and a
      statement's asset or loan link names an existing row (deleting an
      asset or loan nulls the links to it). */
  predicate Wellformed(l: Ledger) {
    && UniqueKeys(l.mainCategories, MainCategoryKey)
    && UniqueKeys(l.categories, CategoryKey)
    && UniqueKeys(l.assets, AssetKey)
    && UniqueKeys(l.loans, LoanKey)
    && UniqueKeys(l.statements, StatementKey)
    && LinksResolve(l.statements, l.assets, l.loans)
  }

  predicate LinksResolve(statements: seq<Statement>, assets: seq<Asset>, loans: seq<Loan>) {
    forall k :: 0 <= k < |statements| ==>
      && (statements[k].assetId.Some? ==> HasKey(assets, AssetKey, statements[k].assetId.value))
      && (statements[k].loanId.Some? ==> HasKey(loans, LoanKey, statements[k].loanId.value))
  }

  /** One result row of the inner join Category -> MainCategory for
      `categoryId`: both rows are in their tables, `c` has that id, and `m`
      is the main category `c` names. */
  predicate JoinsTo(l: Ledger, categoryId: Id, c: Category, m: MainCategory) {
    c in l.categories && m in l.mainCategories && c.id == categoryId && c.mainCategoryId == Some(m.id)
  }

  /** The category type of a category id, through the inner join
      Category -> MainCategory; None when either row is missing. */
  function CategoryTypeOf(l: Ledger, categoryId: Id): (r: Option<int>)
    ensures r.Some? ==> exists c, m :: JoinsTo(l, categoryId, c, m) && m.categoryType == r.value
    ensures r.None? && UniqueKeys(l.categories, CategoryKey) ==> forall c, m :: !JoinsTo(l, categoryId, c, m)
  {
    match IndexOf(l.categories, CategoryKey, categoryId)
    case None => None
    case Some(c) =>
      match l.categories[c].mainCategoryId
      case None => None
      case Some(mid) =>
        match IndexOf(l.mainCategories, MainCategoryKey, mid)
        case None => None
        case Some(m) =>
          assert JoinsTo(l, categoryId, l.categories[c], l.mainCategories[m]);
          Some(l.mainCategories[m].categoryType)
  }

  /** The (Category, MainCategory) pair a statement joins to, if both exist. */
  function JoinOf(l: Ledger, s: Statement): (r: Option<(Category, MainCategory)>)
    ensures r.Some? ==> JoinsTo(l, s.categoryId, r.value.0, r.value.1)
    ensures r.Some? <==> CategoryTypeOf(l, s.categoryId).Some?
    ensures r.Some? ==> CategoryTypeOf(l, s.categoryId) == Some(r.value.1.categoryType)
  {
    match IndexOf(l.categories, CategoryKey, s.categoryId)
    case None => None
    case Some(c) =>
      match l.categories[c].mainCategoryId
      case None => None
      case Some(mid) =>
        match IndexOf(l.mainCategories, MainCategoryKey, mid)
        case None => None
        case Some(m) => Some((l.categories[c], l.mainCategories[m]))
  }
}

=== FILE: summary.dfy ===
/** The statement list filter (app/routes.py:485-524) and the statement
    summary (app/routes.py:587-651). Both inner-join a statement to its
    category and main category and apply the same optional filters, with
    one difference: the list's `date_lte` keeps the whole of that day, the
    summary's keeps only its first instant. The summary then sums the
    amount, discount and saving of one page and of all matching rows. */
module Summary {
  import opened Calendar
  import opened Models

  /** The optional query parameters both endpoints share. */
  datatype StatementQuery = StatementQuery(
    dateLte: Option<Date>,
    dateGte: Option<Date>,
    categoryType: Option<int>,
    categoryId: Option<Id>,
    mainCategoryId: Option<Id>,
    isFixed: Option<bool>)

  /** Every filter but `date_lte`: the join succeeds and each given
      parameter agrees with the statement. */
  predicate CommonMatch(l: Ledger, q: StatementQuery, s: Statement) {
    match JoinOf(l, s)
    case None => false
    case Some(cm) =>
      && (q.dateGte.Some? ==> Midnight(Ordinal(q.dateGte.value)) <= Instant(s.date))
      && (q.categoryType.Some? ==> cm.1.categoryType == q.categoryType.value)
      && (q.categoryId.Some? ==> s.categoryId == q.categoryId.value)
      && (q.mainCategoryId.Some? ==> cm.0.mainCategoryId == q.mainCategoryId)
      && (q.isFixed.Some? ==> s.isFixed == q.isFixed.value)
  }

  /** The list's filter: `date_lte` is moved one day on and compared
      strictly. */
  predicate ListMatches(l: Ledger, q: StatementQuery, s: Statement) {
    && CommonMatch(l, q, s)
    && (q.dateLte.Some? ==> Instant(s.date) < Midnight(Ordinal(q.dateLte.value) + 1))
  }

  /** The summary's filter: `date_lte` is compared as its midnight. */
  predicate SummaryMatches(l: Ledger, q: StatementQuery, s: Statement) {
    && CommonMatch(l, q, s)
    && (q.dateLte.Some? ==> Instant(s.date) <= Midnight(Ordinal(q.dateLte.value)))
  }

  /** `get_statements` before sorting and paging: the rows the list
      filter keeps. */
  function StatementList(l: Ledger, q: StatementQuery): (r: seq<Statement>)
    ensures forall s :: s in r <==> s in l.statements && ListMatches(l, q, s)
    ensures forall s :: multiset(r)[s] == if ListMatches(l, q, s) then multiset(l.statements)[s] else 0
  {
    Select(l.statements, s => ListMatches(l, q, s))
  }

  /** The summary keeps a subset of what the list keeps: the rows it drops
      are exactly those dated on the `date_lte` day after its midnight. */
  lemma SummaryWithinList(l: Ledger, q: StatementQuery, s: Statement)
    ensures SummaryMatches(l, q, s) ==> ListMatches(l, q, s)
    ensures ListMatches(l, q, s) && !SummaryMatches(l, q, s) <==>
      && CommonMatch(l, q, s)
      && q.dateLte.Some?
      && Ordinal(s.date.date) == Ordinal(q.dateLte.value)
      && s.date.secondOfDay > 0
  {
    if q.dateLte.Some? {
      var o := Ordinal(q.dateLte.value);
      CompareWithMidnight(s.date, o + 1);
      CompareWithMidnight(s.date, o);
    }
  }

  /** The rows the summary filter keeps, before paging. */
  function SummaryRows(l: Ledger, q: StatementQuery): (r: seq<Statement>)
    ensures forall s :: s in r <==> s in l.statements && SummaryMatches(l, q, s)
    ensures forall s :: multiset(r)[s] == if SummaryMatches(l, q, s) then multiset(l.statements)[s] else 0
  {
    Select(l.statements, s => SummaryMatches(l, q, s))
  }

  function StatementAmount(s: Statement): int { s.amount }
  function StatementDiscount(s: Statement): int { s.discount }
  function StatementSaving(s: Statement): int { s.saving }

  /** The first row of page `page` of `size` rows, clamped to the rows. */
  function PageStart(n: int, page: int, size: int): int {
    if (page - 1) * size < n then (page - 1) * size else n
  }

  /** One past the last row of page `page`, clamped to the rows. */
  function PageEnd(n: int, page: int, size: int): int {
    if page * size < n then page * size else n
  }

  /** Rows of page `page` (counted from 1) of `size` rows: OFFSET
      (page - 1) * size, LIMIT size. */
  function Page(rows: seq<Statement>, page: int, size: int): (r: seq<Statement>)
    requires page >= 1 && size >= 1
    ensures |r| <= size
    ensures (page - 1) * size >= |rows| ==> r == []
    ensures page * size <= |rows| ==> r == rows[(page - 1) * size .. page * size]
    ensures (page - 1) * size < |rows| < page * size ==> r == rows[(page - 1) * size ..]
  {
    var lo := if (page - 1) * size < |rows| then (page - 1) * size else |rows|;
    var hi := if page * size < |rows| then page * size else |rows|;
    rows[lo..hi]
  }

  /** A page is the slice between its clamped bounds. */
  lemma PageIsSlice(rows: seq<Statement>, page: int, size: int)
    requires page >= 1 && size >= 1
    ensures 0 <= PageStart(|rows|, page, size) <= PageEnd(|rows|, page, size) <= |rows|
    ensures Page(rows, page, size) == rows[PageStart(|rows|, page, size)..PageEnd(|rows|, page, size)]
  {
    assert page * size >= size;
  }

  /** A first page at least as large as the rows holds all of them. */
  lemma FirstPageHoldsAll(rows: seq<Statement>, size: int)
    requires size >= 1
    ensures size >= |rows| ==> Page(rows, 1, size) == rows
  {
    assert (1 - 1) * size == 0;
  }

  datatype SummarySums = SummarySums(
    pageAmount: int,
    pageDiscount: int,
    pageSaving: int,
    totalAmount: int,
    totalDiscount: int,
    totalSaving: int)

  /** The sums of one page of `rows` and of all of them. A page past the
      end sums to 0, and a first page holding every row sums to the
      totals. */
  function SumsOf(rows: seq<Statement>, page: int, size: int): (r: SummarySums)
    requires page >= 1 && size >= 1
    ensures 0 <= PageStart(|rows|, page, size) <= PageEnd(|rows|, page, size) <= |rows|
    ensures var lo, hi := PageStart(|rows|, page, size), PageEnd(|rows|, page, size);
      && r.pageAmount == Sum(rows[lo..hi], StatementAmount)
      && r.pageDiscount == Sum(rows[lo..hi], StatementDiscount)
      && r.pageSaving == Sum(rows[lo..hi], StatementSaving)
    ensures r.totalAmount == Sum(rows, StatementAmount)
    ensures r.totalDiscount == Sum(rows, StatementDiscount)
    ensures r.totalSaving == Sum(rows, StatementSaving)
    ensures (page - 1) * size >= |rows| ==> r.pageAmount == 0 && r.pageDiscount == 0 && r.pageSaving == 0
    ensures page == 1 && size >= |rows| ==>
      r.pageAmount == r.totalAmount && r.pageDiscount == r.totalDiscount && r.pageSaving == r.totalSaving
  {
    var lo, hi := PageStart(|rows|, page, size), PageEnd(|rows|, page, size);
    assert page * size >= size;
    assert page == 1 ==> lo == 0;
    assert page == 1 && size >= |rows| ==> rows[lo..hi] == rows;
    var onPage := rows[lo..hi];
    SummarySums(
      Sum(onPage, StatementAmount), Sum(onPage, StatementDiscount), Sum(onPage, StatementSaving),
      Sum(rows, StatementAmount), Sum(rows, StatementDiscount), Sum(rows, StatementSaving))
  }

  /** `get_statement_summary`. A page below 1 or a size outside 1..100 is
      refused by request validation; a SUM over no rows is NULL, read as 0,
      which is what the sum of no rows already is. */
  function StatementSummary(l: Ledger, q: StatementQuery, page: int, size: int): (r: Option<SummarySums>)
    ensures r.Some? <==> page >= 1 && 1 <= size <= 100
    ensures r.Some? ==>
      && r.value.totalAmount == SumWhere(l.statements, s => SummaryMatches(l, q, s), StatementAmount)
      && r.value.totalDiscount == SumWhere(l.statements, s => SummaryMatches(l, q, s), StatementDiscount)
      && r.value.totalSaving == SumWhere(l.statements, s => SummaryMatches(l, q, s), StatementSaving)
    ensures r.Some? ==>
      var rows := SummaryRows(l, q);
      var lo, hi := PageStart(|rows|, page, size), PageEnd(|rows|, page, size);
      && 0 <= lo <= hi <= |rows|
      && r.value.pageAmount == Sum(rows[lo..hi], StatementAmount)
      && r.value.pageDiscount == Sum(rows[lo..hi], StatementDiscount)
      && r.value.pageSaving == Sum(rows[lo..hi], StatementSaving)
    ensures r.Some? && (page - 1) * size >= |SummaryRows(l, q)| ==>
      r.value.pageAmount == 0 && r.value.pageDiscount == 0 && r.value.pageSaving == 0
    ensures r.Some? && page == 1 && size >= |SummaryRows(l, q)| ==>
      && r.value.pageAmount == r.value.totalAmount
      && r.value.pageDiscount == r.value.totalDiscount
      && r.value.pageSaving == r.value.totalSaving
  {
    if page < 1 || size < 1 || size > 100 then None
    else
      SumSelect(l.statements, s => SummaryMatches(l, q, s), StatementAmount);
      SumSelect(l.statements, s => SummaryMatches(l, q, s), StatementDiscount);
      SumSelect(l.statements, s => SummaryMatches(l, q, s), StatementSaving);
      Some(SumsOf(SummaryRows(l, q), page, size))
  }

  /** The amounts of pages 1..n together. */
  function PagesAmount(rows: seq<Statement>, n: nat, size: int): int
    requires size >= 1
  {
    if n == 0 then 0 else PagesAmount(rows, n - 1, size) + Sum(Page(rows, n, size), StatementAmount)
  }

  /** The rows of pages 1..n, one page after another. */
  function PagesRows(rows: seq<Statement>, n: nat, size: int): seq<Statement>
    requires size >= 1
  {
    if n == 0 then [] else PagesRows(rows, n - 1, size) + Page(rows, n, size)
  }

  /** Pages tile the rows: the first n pages hold exactly the first
      n * size rows (all of them once that passes the end), so their
      amounts add up to the amount of those rows. */
  lemma {:induction false} PagesTile(rows: seq<Statement>, n: nat, size: int)
    requires size >= 1
    ensures PagesRows(rows, n, size) == rows[..if n * size < |rows| then n * size else |rows|]
    ensures PagesAmount(rows, n, size) == Sum(rows[..if n * size < |rows| then n * size else |rows|], StatementAmount)
  {
    PagesRowsTile(rows, n, size);
    PagesAmountOfRows(rows, n, size);
  }

  lemma {:induction false} PagesRowsTile(rows: seq<Statement>, n: nat, size: int)
    requires size >= 1
    ensures PagesRows(rows, n, size) == rows[..if n * size < |rows| then n * size else |rows|]
  {
    if n > 0 {
      PagesRowsTile(rows, n - 1, size);
      var m := n * size;
      assert (n - 1) * size == m - size && m >= size;
      var lo := if m - size < |rows| then m - size else |rows|;
      var hi := if m < |rows| then m else |rows|;
      assert PagesRows(rows, n - 1, size) == rows[..lo];
      assert Page(rows, n, size) == rows[lo..hi];
      assert rows[..hi] == rows[..lo] + rows[lo..hi];
    } else {
      assert n * size == 0;
    }
  }

  /** The pages' amounts are the amount of the rows they hold. */
  lemma {:induction false} PagesAmountOfRows(rows: seq<Statement>, n: nat, size: int)
    requires size >= 1
    ensures PagesAmount(rows, n, size) == Sum(PagesRows(rows, n, size), StatementAmount)
  {
    if n > 0 {
      PagesAmountOfRows(rows, n - 1, size);
      var earlier, last := PagesRows(rows, n - 1, size), Page(rows, n, size);
      assert PagesRows(rows, n, size) == earlier + last;
      assert PagesAmount(rows, n, size) == PagesAmount(rows, n - 1, size) + Sum(last, StatementAmount);
      SumAppend(earlier, last, StatementAmount);
    }
  }

  /** The `pageAmount` the summary reports for pages 1..n, added up. */
  function SummaryPagesAmount(l: Ledger, q: StatementQuery, n: nat, size: int): int
    requires 1 <= size <= 100
  {
    if n == 0 then 0
    else SummaryPagesAmount(l, q, n - 1, size) + StatementSummary(l, q, n, size).value.pageAmount
  }

  /** The summary's page amounts are the amounts of the pages of its rows. */
  lemma {:induction false} SummaryPagesArePages(l: Ledger, q: StatementQuery, n: nat, size: int)
    requires 1 <= size <= 100
    ensures SummaryPagesAmount(l, q, n, size) == PagesAmount(SummaryRows(l, q), n, size)
  {
    if n > 0 {
      SummaryPagesArePages(l, q, n - 1, size);
      SummaryPageIsPage(l, q, n, size);
    }
  }

  /** The `pageAmount` of one page is the amount of that page of the rows. */
  lemma SummaryPageIsPage(l: Ledger, q: StatementQuery, page: int, size: int)
    requires page >= 1 && 1 <= size <= 100
    ensures StatementSummary(l, q, page, size).value.pageAmount == Sum(Page(SummaryRows(l, q), page, size), StatementAmount)
  {
    PageIsSlice(SummaryRows(l, q), page, size);
  }

  /** With enough pages to cover every row, the `pageAmount`s the summary
      reports for them add up to its total amount. */
  lemma PagesAddUpToTotal(l: Ledger, q: StatementQuery, n: nat, size: int)
    requires 1 <= size <= 100
    requires n * size >= |SummaryRows(l, q)|
    ensures SummaryPagesAmount(l, q, n, size) == StatementSummary(l, q, 1, size).value.totalAmount
    ensures PagesAmount(SummaryRows(l, q), n, size) == StatementSummary(l, q, 1, size).value.totalAmount
  {
    var rows := SummaryRows(l, q);
    PagesTile(rows, n, size);
    assert rows[..|rows|] == rows;
    SummaryPagesArePages(l, q, n, size);
  }
}

=== FILE: totals.dfy ===
/** `get_statement_total` (app/routes.py:841-896): for mode 3, the month's
    amounts per category type and its discounts, with the schema's
    defaults (app/schema.py:151-158) for a type that has no statements.
    "The month" is matched on the month number alone, so the same month of
    every year counts. Modes 1 and 2 build no result. */
module Totals {
  import opened Calendar
  import opened Models
  import opened Grouping

  datatype CategorySums = CategorySums(
    income: int,
    expense: int,
    expenseSaving: int,
    saving: int,
    discount: int,
    total: int,
    totalNoDiscount: int)

  predicate InMonth(s: Statement, month: int) {
    s.date.date.month == month
  }

  /** The (category type, amount, saving) rows of the grouped query:
      statements of the month that join to a main category. */
  function TypeEntries(l: Ledger, ss: seq<Statement>, month: int): (es: seq<Entry>)
    ensures |es| <= |ss|
  {
    if |ss| == 0 then []
    else
      var rest := TypeEntries(l, ss[1..], month);
      match JoinOf(l, ss[0])
      case None => rest
      case Some(cm) =>
        if InMonth(ss[0], month) then [Entry(cm.1.categoryType, ss[0].amount, ss[0].saving)] + rest else rest
  }

  /** Reference sums over the statements of the month whose main category
      has type `t`. */
  function AmountOfType(l: Ledger, ss: seq<Statement>, month: int, t: int): int {
    if |ss| == 0 then 0
    else
      var here := if InMonth(ss[0], month) && CategoryTypeOf(l, ss[0].categoryId) == Some(t) then ss[0].amount else 0;
      here + AmountOfType(l, ss[1..], month, t)
  }

  function SavingOfType(l: Ledger, ss: seq<Statement>, month: int, t: int): int {
    if |ss| == 0 then 0
    else
      var here := if InMonth(ss[0], month) && CategoryTypeOf(l, ss[0].categoryId) == Some(t) then ss[0].saving else 0;
      here + SavingOfType(l, ss[1..], month, t)
  }

  /** Discounts of every statement of the month, joined or not. */
  function DiscountOfMonth(ss: seq<Statement>, month: int): int {
    if |ss| == 0 then 0
    else (if InMonth(ss[0], month) then ss[0].discount else 0) + DiscountOfMonth(ss[1..], month)
  }

  lemma {:induction false} TypeEntriesSums(l: Ledger, ss: seq<Statement>, month: int, t: int)
    ensures SumFirst(TypeEntries(l, ss, month), t) == AmountOfType(l, ss, month, t)
    ensures SumSecond(TypeEntries(l, ss, month), t) == SavingOfType(l, ss, month, t)
  {
    if |ss| > 0 {
      TypeEntriesSums(l, ss[1..], month, t);
      var rest := TypeEntries(l, ss[1..], month);
      match JoinOf(l, ss[0])
      case None =>
      case Some(cm) =>
        if InMonth(ss[0], month) {
          assert ([Entry(cm.1.categoryType, ss[0].amount, ss[0].saving)] + rest)[1..] == rest;
        }
    }
  }

  /** One type's group read back: its amount sum, or the default 0. */
  function FirstOr0(g: Option<Entry>): int {
    if g.Some? then g.value.first else 0
  }

  function SecondOr0(g: Option<Entry>): int {
    if g.Some? then g.value.second else 0
  }

  /** The totals of mode 3, month taken from `d`. Every field is the sum
      over the month's statements of its type, and the two totals add the
      type sums with and without the discounts. */
  function StatementTotal(l: Ledger, mode: int, d: Date): (r: Option<CategorySums>)
    ensures r.Some? <==> mode == 3
    ensures r.Some? ==>
      && r.value.income == AmountOfType(l, l.statements, d.month, TYPE_INCOME)
      && r.value.expense == AmountOfType(l, l.statements, d.month, TYPE_EXPENSE)
      && r.value.expenseSaving == SavingOfType(l, l.statements, d.month, TYPE_EXPENSE)
      && r.value.saving == AmountOfType(l, l.statements, d.month, TYPE_SAVING)
      && r.value.discount == DiscountOfMonth(l.statements, d.month)
      && r.value.totalNoDiscount == r.value.income + r.value.expense + r.value.saving
      && r.value.total == r.value.totalNoDiscount + r.value.discount
  {
    if mode != 3 then None
    else
      var es := TypeEntries(l, l.statements, d.month);
      var groups := GroupBy(es);
      var income := FirstOr0(Lookup(groups, TYPE_INCOME));
      var expense := FirstOr0(Lookup(groups, TYPE_EXPENSE));
      var expenseSaving := SecondOr0(Lookup(groups, TYPE_EXPENSE));
      var saving := FirstOr0(Lookup(groups, TYPE_SAVING));
      var discount := DiscountOfMonth(l.statements, d.month);
      GroupedSums(es, TYPE_INCOME);
      GroupedSums(es, TYPE_EXPENSE);
      GroupedSums(es, TYPE_SAVING);
      TypeEntriesSums(l, l.statements, d.month, TYPE_INCOME);
      TypeEntriesSums(l, l.statements, d.month, TYPE_EXPENSE);
      TypeEntriesSums(l, l.statements, d.month, TYPE_SAVING);
      Some(CategorySums(income, expense, expenseSaving, saving, discount,
                        income + expense + saving + discount, income + expense + saving))
  }

  /** The year of the requested date plays no part: two dates in the same
      month number give the same totals. */
  lemma TotalsIgnoreYear(l: Ledger, d: Date, e: Date)
    requires d.month == e.month
    ensures StatementTotal(l, 3, d) == StatementTotal(l, 3, e)
  {
  }
}
